=== FILE: README.md ===
# Markdown and document classifiers: a Dafny model

This project models the deterministic core of two small Streamlit apps that sort documents into groups.

**The Markdown classifier** (`gpt_md_classifier_app.py`) works in five steps:
- It submits each uploaded Markdown file once for analysis.
- It reads a topic and a summary back out of each free-text model reply.
- It reads the model's grouping reply into an ordered dictionary, from group name to that group's files and keywords.
- It writes one folder per group, holding a generated `README.md` and a copy of every listed file that was analysed.
- It zips the result.

**The embedding classifier** (`app.py`) works in four steps:
- It extracts text by file extension and drops files whose text is empty.
- It truncates each text before embedding.
- It lets the user pick a cluster count on a slider and clusters the embeddings with KMeans.
- It buckets the documents by cluster label and builds a prompt that asks for a summary of each cluster.

The model is purely functional. Python `str` operations become functions on `seq<char>` (module `Text`):
- `strip()` uses exactly the characters for which Python's `isspace` holds.
- `split(sep)` keeps empty pieces.
- `split(":", 1)[1]` is `AfterFirst`.
- A `dict` is a sequence of entries in insertion order (module `OrderedMap`). Assigning to a present key keeps its position.

The Markdown classifier's two chat requests, analysis and grouping, are replaced by their replies, given as arguments. Each reply is `Option<string>`, and `None` means the request raised, which the source catches. In the embedding classifier, the embedding requests and KMeans together are one function argument from the embedded texts and the count to labels. The PDF reader and the Markdown renderer are arguments too.

Each parser and list-building loop has a reference definition it is proved equal to:
- The topic/summary parser is proved to return the last topic line's value and the last summary line's value.
- The grouping parser is proved to produce exactly the first-seen group names. Each name maps to the files of its last definition and to the keywords of the last keyword line before the next group line.
- The de-duplication loop is proved to keep exactly the first upload of each name.
- The README text is proved to split back into its title, its keyword line and one bullet per file.
- The bucketing loop is proved to be a partition in first-seen label order.

The save-and-copy loop of the Markdown classifier has no such reference. Its lemmas state which files it writes and what they hold, not their order.

## Model

| member | source | states |
|---|---|---|
| Text.Strip | gpt_md_classifier_app.py:72 | The result has no whitespace at either end. It is a contiguous slice of the input, and only whitespace follows it. |
| Text.StripEmptyIffAllSpace | gpt_md_classifier_app.py:104 | A piece strips to the empty string exactly when it is all whitespace. Such pieces are the ones the file filter drops. |
| Text.StripIdempotent | gpt_md_classifier_app.py:105 | Stripping a stripped string changes nothing. |
| Text.StripKeepsAbsent | gpt_md_classifier_app.py:104 | Stripping introduces no character that was not in the input. |
| Text.StripNonEmptyAppend | gpt_md_classifier_app.py:104 | Dropping the pieces that strip to nothing keeps the rest in order: the kept pieces of two runs of pieces are those of the first run followed by those of the second. |
| Text.Split | gpt_md_classifier_app.py:70 | `split` on one character gives at least one piece. No piece contains the separator, and joining the pieces with it gives the input back. |
| Text.SplitJoin | gpt_md_classifier_app.py:101 | Splitting a joined list gives the list back when no piece holds the separator. |
| Text.SplitCons | gpt_md_classifier_app.py:101 | A leading piece that is free of the separator splits off as the first line. |
| Text.SplitEmpty | gpt_md_classifier_app.py:101 | Splitting the empty string gives one empty piece. |
| Text.JoinExcludes | gpt_md_classifier_app.py:165 | A character found in no piece and not in the separator is not in the join. |
| Text.SplitPiecesExclude | gpt_md_classifier_app.py:101 | No piece of a split holds a character the text lacks. |
| Text.FirstIndex | gpt_md_classifier_app.py:103 | The index of the first occurrence of a character: the character is there and does not occur before it. |
| Text.AfterFirst | gpt_md_classifier_app.py:103 | Everything after the first colon: a colon-free prefix, the colon, then the result make up the line. |
| Text.LowerKeepsCaselessPrefix | gpt_md_classifier_app.py:71 | Lower-casing does not change whether a line starts with a label that has no letters, such as the Hangul labels. |
| Text.LastOccurrenceSpec | gpt_md_classifier_app.py:61 | The position `rsplit` cuts at is an occurrence of the substring, and no occurrence starts after it. |
| Text.Truncate | app.py:32 | `s[:n]` has length `min(n, len(s))` and is a prefix of `s`. |
| Seqs.FirstSeen | app.py:75-77 | The key order of a dict filled by walking a list: each element once, nothing else. Of two keys, the earlier one occurs in the list before the later one first occurs. |
| Seqs.LastWhere | gpt_md_classifier_app.py:70-74 | The last index satisfying a test, or none exactly when no element does. |
| OrderedMap.Get | gpt_md_classifier_app.py:109 | A lookup finds a value exactly when the key is present, and the entry holds that value. |
| OrderedMap.Put | gpt_md_classifier_app.py:106 | Assignment stores the value and leaves other keys alone. A present key keeps its place; a new key goes last. |
| OrderedMap.FlattenAppend | app.py:77 | `setdefault(k, []).append(x)` adds exactly one `x` to all the values taken together. |
| TopicReply.LabelledLine | gpt_md_classifier_app.py:71-74 | A line that passes a label test begins with the label, so its first colon is the label's own. |
| TopicReply.LabelValueAfterLabel | gpt_md_classifier_app.py:72-74 | The value is the rest of the line after the label, stripped. Later colons stay in the value. |
| TopicReply.ClassifyTopic | gpt_md_classifier_app.py:71-72 | Lower-casing never decides the topic test: a line is a topic line exactly when it starts with "주제:". Its value is the rest of the line, stripped. |
| TopicReply.ClassifySummary | gpt_md_classifier_app.py:71-74 | A line is a summary line exactly when it starts with "요약:" and not with "주제:". Its value is the rest of the line, stripped. |
| TopicReply.ParseLinesIsLastLabel | gpt_md_classifier_app.py:69-75 | The loop returns the value of the last topic line, else "Unknown". It returns the value of the last summary line, else "". |
| TopicReply.NoLabelsGivesFallback | gpt_md_classifier_app.py:69-75 | A reply in which no line starts with either label gives ("Unknown", ""). |
| TopicReply.ParseReplySpec | gpt_md_classifier_app.py:68-78 | A failed request gives ("Unknown", ""). Otherwise the lines of the stripped reply decide the pair as above. |
| TopicReply.Excerpt | gpt_md_classifier_app.py:61 | The excerpt is a prefix of the content of at most 1000 characters. When the first 1000 characters hold a backslash-n, the excerpt ends at the last one. Otherwise it is those characters. |
| GroupReply.GroupFilesClean | gpt_md_classifier_app.py:104 | Every file listed on a group line is non-empty, already stripped and free of commas. |
| GroupReply.LastDefinition | gpt_md_classifier_app.py:106 | The last group line with a given name, or none exactly when no group line has that name. |
| GroupReply.CurrentSpec | gpt_md_classifier_app.py:101-105 | After any prefix of the reply, the open group is the name of the last group line, if any. |
| GroupReply.KeysSpec | gpt_md_classifier_app.py:101-106 | After any prefix of the reply, the keys are the group names in first-seen order, each once. A repeated name keeps its first place. |
| GroupReply.EntriesSpec | gpt_md_classifier_app.py:100-109 | After any prefix of the reply, every name's entry is the one its last group line and the keyword lines after it describe. |
| GroupReply.RunSpec | gpt_md_classifier_app.py:100-109 | After any prefix of the reply, the open group is the last group line's name. The keys are the group names in first-seen order, each once. Each name holds the files of its last group line, plus the keywords of the last keyword line between that line and the next group line. The empty name never gets keywords. |
| GroupReply.OpenGroupIsKey | gpt_md_classifier_app.py:107-109 | The group a keyword line updates is always a key, so the update never fails. |
| GroupReply.GroupNamesHasOpens | gpt_md_classifier_app.py:105 | Every group line's name is among the collected group names. |
| GroupReply.ParseReplySpec | gpt_md_classifier_app.py:99-113 | A failed request gives `{}`. Otherwise the dictionary has distinct keys in first-seen order, and each entry is as RunSpec describes. |
| GroupReply.ParseReplyClean | gpt_md_classifier_app.py:99-109 | No group name, file or keyword of a parsed reply holds a newline, because the reply is cut at newlines first. |
| Uploads.FirstOfEachNameDistinct | gpt_md_classifier_app.py:126-130 | The submitted names are pairwise distinct. |
| Uploads.FirstOfEachNameAreFirsts | gpt_md_classifier_app.py:126-133 | Each submitted upload is an upload unchanged, with its content still paired with its name. It is the first upload with that name. |
| Uploads.FirstOfEachNameCovers | gpt_md_classifier_app.py:126-130 | Every uploaded name is submitted. |
| Uploads.FirstOfEachNameKeepsFirsts | gpt_md_classifier_app.py:126-130 | The first upload of every name is submitted. |
| Uploads.SubmitOnce | gpt_md_classifier_app.py:119-133 | The loop with its `seen_files` set submits exactly the first upload of each name, in upload order, with distinct names. |
| Uploads.Analyse | gpt_md_classifier_app.py:133-138 | A record keeps the upload's name and content. A failed request gives topic "Unknown" and an empty summary; otherwise the record holds the values of the stripped reply's last topic line and last summary line. |
| Uploads.CollectSpec | gpt_md_classifier_app.py:122-139 | In any completion order, every submitted upload yields exactly one record and no two records share a name. |
| Archive.FolderName | gpt_md_classifier_app.py:158 | The folder name has the topic's length. Every space becomes `_` and every other character stays, so no space is left. |
| Archive.FolderNameCollision | gpt_md_classifier_app.py:158 | Two different topics, one with a space and one with an underscore in the same place, share a folder. |
| Archive.BulletsSplit | gpt_md_classifier_app.py:167-168 | The bullet text splits into one `- f` line per file, in order. |
| Archive.ReadmeLines | gpt_md_classifier_app.py:162-168 | The README's lines are, in order: the title and a blank line; the keyword line and a blank line, present only when there are keywords; the heading; one bullet per file. |
| Archive.ReadmeListsFiles | gpt_md_classifier_app.py:162-168 | Reading back the lines that start with "- " gives exactly the group's files, in order. |
| Archive.ParsedReadmeListsFiles | gpt_md_classifier_app.py:101-168 | For every group of a parsed grouping reply, the README written for it lists exactly that group's files. |
| Archive.FirstMatch | gpt_md_classifier_app.py:172 | The first record with the file's name, or none exactly when no record has it. |
| Archive.FirstMatchUnique | gpt_md_classifier_app.py:172 | When names are unique, the match is the record of that name. |
| Archive.CopiesSpec | gpt_md_classifier_app.py:171-177 | A copy is written exactly for each listed file that some record names. It holds that record's content, in the group's folder. |
| Archive.CopiesIgnoreOrder | gpt_md_classifier_app.py:171-177 | Two collections with the same records and unique names give the same copies. |
| Archive.SavedFiles | gpt_md_classifier_app.py:151-180 | Every group contributes at least its README, so the archive is empty exactly when the grouping is. |
| Archive.SavedReadmes | gpt_md_classifier_app.py:161-169 | Every group's README is saved in that group's folder. |
| Archive.SavedFromGroups | gpt_md_classifier_app.py:151-177 | Every saved file is a group's README or one of its copies. |
| Archive.SavedFilesIgnoreCompletionOrder | gpt_md_classifier_app.py:135-177 | For a fixed grouping reply, the saved files do not depend on the order in which the analysis requests complete. The grouping prompt lists the records in that order, so in a real run the reply itself may depend on it. |
| Archive.BuildArchive | gpt_md_classifier_app.py:116-180 | Once at least one file is uploaded, the whole run writes the files the grouping describes. It writes nothing exactly when the grouping is empty. |
| Extraction.ExtensionsExclusive | app.py:18-24 | At most one of ".pdf", ".md" and ".txt" ends a name. |
| Extraction.ExtractTextByKind | app.py:16-26 | The reader is chosen by the lower-cased extension:<br>• an unsupported name gives "";<br>• ".txt" gives the content unchanged;<br>• ".md" gives its rendering;<br>• ".pdf" gives the page texts.<br>Non-empty text implies a supported name. |
| Extraction.BlankPdfText | app.py:20 | A PDF none of whose pages yields text, whether the extractor gives `None` or `""`, gets the newlines between its pages as its text. So a blank PDF of two pages or more has non-empty text and is kept. |
| Extraction.KeptMembers | app.py:62-66 | A document is kept exactly when its text is non-empty. |
| Extraction.KeptAppend | app.py:62-66 | Filtering goes file by file and keeps the upload order. |
| Extraction.KeepNonEmpty | app.py:60-66 | Position by position, the two lists give the name and the non-empty text of the documents whose extracted text is non-empty, in upload order. |
| Clustering.EmbeddingInput | app.py:32 | The embedded text is the prefix of length `min(8000, len(text))`. |
| Clustering.SummaryPrompt | app.py:44-45 | The prompt is the fixed header followed by a prefix of at most 4000 characters of the texts joined by blank lines. |
| Clustering.Slider | app.py:70 | Streamlit's slider widens its range to hold the default and never raises. It returns the default until the user moves it, and otherwise a value in the widened range. With the default inside `[lo, hi]`, the value stays in `[lo, hi]`. |
| Clustering.ClusterCountAsWritten | app.py:70 | From three documents on, the count lies in `[2, min(10, n)]`. Below three, the range widens to hold 3. Left alone, the slider gives 3. |
| Clustering.FewDocumentsFail | app.py:38-39 | With fewer than three documents and the slider left alone, the count is 3, more clusters than documents, so KMeans raises. With two documents, moving the slider to 2 gives a count KMeans accepts. |
| Clustering.ClusterCount | app.py:70 | With the default clamped into `[2, min(10, n)]`, any count lies in that range. |
| Clustering.ClusterCountSpec | app.py:70 | The clamped count exists exactly when there are at least two documents, and KMeans always accepts it. From three documents on it equals the source's count. With two documents it defaults to 2. |
| Clustering.BucketsKeys | app.py:75-77 | Buckets appear in first-seen label order. |
| Clustering.BucketsContents | app.py:75-77 | Each label seen holds exactly its documents, in input order. No other label has a bucket. |
| Clustering.BucketsPartition | app.py:75-77 | The buckets together hold exactly the documents, each once. |
| Clustering.GroupByLabel | app.py:75-77 | The `setdefault` loop over `zip` builds these buckets from the first `min(len(labels), len(docs))` documents. |
| Clustering.LabelledBuckets | app.py:75-77 | With one label per document, the buckets together are a permutation of the documents, and each document is in its own label's bucket. |
| Clustering.ClusterKept | app.py:71-77 | The run fails exactly when KMeans rejects the count. When KMeans gives one label per document, the buckets together hold every document exactly once, and each document is in the bucket of its own label. |
| Clustering.ClusterDocuments | app.py:58-77 | Once at least one file is uploaded, the whole run as written fails exactly when KMeans rejects the slider's count. From three documents on it never fails, and its count lies in `[2, min(10, n)]`. With fewer than three documents and the slider left alone it always fails. Otherwise it buckets the kept documents by their labels. |
| Clustering.ClusterDocumentsClamped | app.py:58-77 | Once at least one file is uploaded, the same run with the clamped default gives buckets exactly when at least two documents have text. Its count lies in `[2, min(10, n)]`. |

## Left out

- User interface: all of Streamlit's progress bars, messages, expanders, checkboxes and download buttons. They only display values the model computes.
- The chat and embedding requests: they go to a remote service. Their replies are arguments. For the chat requests of the Markdown classifier, `None` stands for a request that raised, which the source catches.
- The prompt templates, including the list lines built at gpt_md_classifier_app.py:92. They only shape the replies, which are arguments anyway. The document excerpt that goes into the analysis prompt is modelled (`TopicReply.Excerpt`).
- `summarize_cluster` (app.py:42-52) and its reply: the per-cluster summary request is not modelled. Only its prompt is (`Clustering.SummaryPrompt`). Its reply is displayed and nothing else depends on it.
- KMeans and the embedding vectors: numeric library code over floats. A function from the embedded texts and the count to labels stands for both. Only KMeans' rejection of a count outside `1 .. n` is modelled.
- pdfplumber and markdown2: foreign libraries. A PDF file carries its extractor's per-page results, and the Markdown renderer is an argument.
- The thread pool: the order in which requests complete is an argument, a permutation of the submitted indices.
- The temporary directory, file writes, the zip, `arcname` and `rmtree`: filesystem I/O. The archive is the list of files written, each with a folder, a name and contents. What happens when two groups share a folder, or when a listed file is itself called `README.md`, is not modelled.
- UTF-8 decoding errors: decoding is taken to succeed. The decoded text is part of an upload.
- Extraction.ExtractText: it is total. In the source, app.py:16-26 and 62-68 have no `try`, so an exception from `pdfplumber.open`, `extract_text` or markdown2, or an embedding request that raises (app.py:68), ends the whole run. The model has no path for these failures.
- Text.Lower: lower-cases ASCII letters only, whereas Python's `lower()` maps every Unicode letter. The model applies it only to prefix tests with the Hangul labels and to suffix tests with ".pdf", ".md" and ".txt". No non-ASCII character lower-cases to one of the characters in those labels and suffixes, so the tests agree with Python's.
- Uploads.Collect: the completion order is modelled as any permutation, not as the timing that produces it.
- Clustering.Slider: a pick is modelled as any value the user chose, used when it lies in the widened range. How Streamlit keeps a moved slider's value across reruns is not modelled.
- Archive.BuildArchive: the grouping reply is an argument, not derived from the records through the prompt.

## Findings

| source | as written | input that shows it | evidently intended | confidence | as-written member | corrected member |
|---|---|---|---|---|---|---|
| app.py:70 | `st.slider(..., 2, min(10, len(embeddings)), 3)` fixes the default at 3 | two documents with non-empty text and the slider left alone: Streamlit widens the range `[2, 2]` to `[2, 3]` and returns 3, and `KMeans(n_clusters=3)` at app.py:38-39 raises on two samples. One document or none fails the same way | a default clamped into the range, `min(3, min(10, n))`, so that two documents are clustered into two groups | medium, not executed; it rests on Streamlit widening the range to hold the default and on scikit-learn rejecting more clusters than samples | Clustering.FewDocumentsFail | Clustering.ClusterCountSpec |

=== FILE: archive.dfy ===
/** The archive the Markdown classifier builds from the grouping: one folder
    per group, holding a README that lists the group and a copy of each of
    its files that was analysed. The files are values of the `Written`
    datatype; the temporary directory, the zip and its entry names are not
    modelled. */
module Archive {
  import opened Wrappers
  import opened Text
  import opened Seqs
  import opened OrderedMap
  import opened Uploads
  import GroupReply

  /** A file written into the archive: its folder, its name there, its text. */
  datatype Written = Written(folder: string, name: string, content: string)

  const ReadmeName: string := "README.md"
  const KeywordsHeading: string := "**📌 키워드:** "
  const FilesHeading: string := "## 📄 포함된 파일 목록"

  /** `topic.replace(" ", "_")`: every space becomes an underscore, every
      other character stays, so no space survives. */
  function FolderName(topic: string): (r: string)
    ensures |r| == |topic| && ' ' !in r
    ensures forall i :: 0 <= i < |topic| && topic[i] == ' ' ==> r[i] == '_'
    ensures forall i :: 0 <= i < |topic| && topic[i] != ' ' ==> r[i] == topic[i]
  {
    ReplaceChar(topic, ' ', '_')
  }

  /** Two different topics can share a folder: a space and an underscore at
      the same place give the same folder name. */
  lemma FolderNameCollision(topic: string, i: nat)
    requires i < |topic| && topic[i] == ' '
    ensures topic[i := '_'] != topic
    ensures FolderName(topic[i := '_']) == FolderName(topic)
  {
    assert topic[i := '_'][i] != topic[i];
  }

  /** The line `- f` for each file, each ended by a newline. */
  function Bullets(files: seq<string>): string {
    if |files| == 0 then [] else "- " + files[0] + "\n" + Bullets(files[1..])
  }

  /** The keyword line and its blank line, written only when there are keywords. */
  function KeywordBlock(keywords: seq<string>): string {
    if |keywords| == 0 then [] else KeywordsHeading + Join(keywords, ", ") + "\n\n"
  }

  /** The README written into a group's folder. */
  function Readme(topic: string, keywords: seq<string>, files: seq<string>): string {
    "# " + topic + "\n\n" + KeywordBlock(keywords) + FilesHeading + "\n" + Bullets(files)
  }

  /** The bullet lines without their newlines. */
  function BulletLines(files: seq<string>): (r: seq<string>)
    ensures |r| == |files|
    ensures forall i :: 0 <= i < |files| ==> r[i] == "- " + files[i]
  {
    seq(|files|, i requires 0 <= i < |files| => "- " + files[i])
  }

  predicate NoNewline(s: string) {
    '\n' !in s
  }

  predicate NoNewlines(parts: seq<string>) {
    forall i :: 0 <= i < |parts| ==> '\n' !in parts[i]
  }

  lemma {:induction false} BulletsSplit(files: seq<string>)
    requires NoNewlines(files)
    ensures Split(Bullets(files), '\n') == BulletLines(files) + [""]
  {
    if |files| == 0 {
      SplitEmpty('\n');
    } else {
      BulletsSplit(files[1..]);
      BulletStep(files);
    }
  }

  lemma BulletStep(files: seq<string>)
    requires |files| > 0 && NoNewlines(files)
    requires Split(Bullets(files[1..]), '\n') == BulletLines(files[1..]) + [""]
    ensures Split(Bullets(files), '\n') == BulletLines(files) + [""]
  {
    var line := "- " + files[0];
    BulletParts(files);
    SplitCons(line, '\n', Bullets(files[1..]));
  }

  /** A bullet is its line, a newline and the later bullets; its line has no newline. */
  lemma BulletParts(files: seq<string>)
    requires |files| > 0 && NoNewlines(files)
    ensures '\n' !in "- " + files[0]
    ensures Bullets(files) == ("- " + files[0]) + ['\n'] + Bullets(files[1..])
    ensures BulletLines(files) + [""] == ["- " + files[0]] + (BulletLines(files[1..]) + [""])
  {
    BulletLineClean(files[0]);
    BulletLinesCons(files);
  }

  lemma BulletLineClean(file: string)
    requires '\n' !in file
    ensures '\n' !in "- " + file
  {
    assert "- " + file == ['-', ' '] + file;
  }

  lemma BulletLinesCons(files: seq<string>)
    requires |files| > 0
    ensures BulletLines(files) + [""] == ["- " + files[0]] + (BulletLines(files[1..]) + [""])
  {
    assert BulletLines(files) == ["- " + files[0]] + BulletLines(files[1..]);
  }

  /** The lines of a README: the title, a blank line, the keyword line and a
      blank line when there are keywords, the heading, one bullet per file in
      order, and the empty piece after the final newline. */
  lemma ReadmeLines(topic: string, keywords: seq<string>, files: seq<string>)
    requires NoNewline(topic) && NoNewlines(keywords) && NoNewlines(files)
    ensures Split(Readme(topic, keywords, files), '\n')
         == ["# " + topic, ""] + KeywordLines(keywords) + [FilesHeading] + BulletLines(files) + [""]
  {
    var tail := FilesHeading + "\n" + Bullets(files);
    var tailLines := [FilesHeading] + (BulletLines(files) + [""]);
    TailLines(files);
    KeywordBlockLines(keywords, tail, tailLines);
    TitleClean(topic);
    TitleLines("# " + topic, KeywordBlock(keywords) + tail, KeywordLines(keywords) + tailLines);
    ReadmeParts(topic, keywords, files);
  }

  lemma TailLines(files: seq<string>)
    requires NoNewlines(files)
    ensures Split(FilesHeading + "\n" + Bullets(files), '\n') == [FilesHeading] + (BulletLines(files) + [""])
  {
    BulletsSplit(files);
    HeadingsClean();
    SplitAfterLine(FilesHeading, Bullets(files), BulletLines(files) + [""]);
  }

  /** Neither heading holds a newline, and neither starts with "-". */
  lemma HeadingsClean()
    ensures '\n' !in FilesHeading && FilesHeading[0] != '-'
    ensures '\n' !in KeywordsHeading && KeywordsHeading[0] != '-'
  {
  }

  /** A title line followed by a blank line. */
  lemma TitleLines(title: string, body: string, lines: seq<string>)
    requires '\n' !in title && Split(body, '\n') == lines
    ensures Split(title + "\n\n" + body, '\n') == [title, ""] + lines
  {
    var blank := "\n" + body;
    assert Split(blank, '\n') == [""] + lines by {
      SplitAfterLine("", body, lines);
      assert "" + "\n" + body == blank;
    }
    assert title + "\n\n" + body == title + "\n" + blank;
    SplitAfterLine(title, blank, [""] + lines);
    assert [title] + ([""] + lines) == [title, ""] + lines;
  }

  /** The keyword line and the blank line after it, when there are keywords. */
  function KeywordLines(keywords: seq<string>): seq<string> {
    if |keywords| == 0 then [] else [KeywordsHeading + Join(keywords, ", "), ""]
  }

  lemma SplitAfterLine(line: string, rest: string, lines: seq<string>)
    requires '\n' !in line && Split(rest, '\n') == lines
    ensures Split(line + "\n" + rest, '\n') == [line] + lines
  {
    SplitCons(line, '\n', rest);
  }

  lemma KeywordBlockLines(keywords: seq<string>, tail: string, tailLines: seq<string>)
    requires NoNewlines(keywords) && Split(tail, '\n') == tailLines
    ensures Split(KeywordBlock(keywords) + tail, '\n') == KeywordLines(keywords) + tailLines
  {
    if |keywords| == 0 {
      assert KeywordBlock(keywords) + tail == tail;
    } else {
      var kline := KeywordsHeading + Join(keywords, ", ");
      JoinExcludes(keywords, ", ", '\n');
      assert '\n' !in kline;
      TitleLines(kline, tail, tailLines);
      assert KeywordBlock(keywords) + tail == kline + "\n\n" + tail;
    }
  }

  lemma TitleClean(topic: string)
    requires NoNewline(topic)
    ensures '\n' !in "# " + topic
  {
    assert "# " + topic == ['#', ' '] + topic;
  }

  lemma ReadmeParts(topic: string, keywords: seq<string>, files: seq<string>)
    ensures Readme(topic, keywords, files)
         == ("# " + topic) + "\n\n" + (KeywordBlock(keywords) + (FilesHeading + "\n" + Bullets(files)))
    ensures ["# " + topic, ""] + KeywordLines(keywords) + [FilesHeading] + BulletLines(files) + [""]
         == ["# " + topic, ""] + (KeywordLines(keywords) + ([FilesHeading] + (BulletLines(files) + [""])))
  {
    Regroup6("# " + topic, "\n\n", KeywordBlock(keywords), FilesHeading, "\n", Bullets(files));
    Regroup5(["# " + topic, ""], KeywordLines(keywords), [FilesHeading], BulletLines(files), [""]);
  }

  /** Concatenation is associative. These two shapes exist only to keep
      `ReadmeParts`, and the README proofs that use it, inside the
      verifier's resource limit: with the regrouping written inline the
      solver searches too long. */
  lemma Regroup6<T>(a: seq<T>, b: seq<T>, c: seq<T>, d: seq<T>, e: seq<T>, f: seq<T>)
    ensures a + b + c + d + e + f == a + b + (c + (d + e + f))
  {
  }

  lemma Regroup5<T>(a: seq<T>, b: seq<T>, c: seq<T>, d: seq<T>, e: seq<T>)
    ensures a + b + c + d + e == a + (b + (c + (d + e)))
  {
  }

  /** Reading a README back: the lines that start with "- ", without that prefix. */
  function ListedFiles(lines: seq<string>): seq<string> {
    if |lines| == 0 then []
    else
      var rest := ListedFiles(lines[1..]);
      if StartsWith(lines[0], "- ") then [lines[0][2..]] + rest else rest
  }

  lemma {:induction false} ListedFilesAppend(a: seq<string>, b: seq<string>)
    ensures ListedFiles(a + b) == ListedFiles(a) + ListedFiles(b)
  {
    if |a| == 0 {
      assert a + b == b;
    } else {
      ListedFilesAppend(a[1..], b);
      var first := if StartsWith(a[0], "- ") then [a[0][2..]] else [];
      assert ListedFiles(a) == first + ListedFiles(a[1..]);
      assert ListedFiles(a + b) == first + ListedFiles(a[1..] + b) by {
        assert (a + b)[0] == a[0];
        assert (a + b)[1..] == a[1..] + b;
      }
      AppendAssoc(first, ListedFiles(a[1..]), ListedFiles(b));
    }
  }

  lemma {:induction false} ListedBullets(files: seq<string>)
    ensures ListedFiles(BulletLines(files)) == files
  {
    if |files| > 0 {
      ListedBullets(files[1..]);
      assert BulletLines(files)[1..] == BulletLines(files[1..]);
    }
  }

  /** The README lists exactly the group's files, in order: no other line
      starts with "- ". */
  lemma ReadmeListsFiles(topic: string, keywords: seq<string>, files: seq<string>)
    requires NoNewline(topic) && NoNewlines(keywords) && NoNewlines(files)
    ensures ListedFiles(Split(Readme(topic, keywords, files), '\n')) == files
  {
    ReadmeLines(topic, keywords, files);
    var head := ["# " + topic, ""] + KeywordLines(keywords) + [FilesHeading];
    var bullets := BulletLines(files);
    AppendAssoc(head, bullets, [""]);
    ListedFilesAppend(head, bullets + [""]);
    ListedFilesAppend(bullets, [""]);
    ListedBullets(files);
    NoneListed([""]);
    HeadUnlisted(topic, keywords);
  }

  /** The README written for any group of a parsed grouping reply lists
      exactly that group's files: the parser never yields a newline. */
  lemma ParsedReadmeListsFiles(reply: Option<string>, topic: string)
    requires Get(GroupReply.ParseReply(reply), topic).Some?
    ensures var g := Get(GroupReply.ParseReply(reply), topic).value;
      ListedFiles(Split(ReadmeFile(topic, g).content, '\n')) == g.files
  {
    GroupReply.ParseReplyClean(reply);
    var g := Get(GroupReply.ParseReply(reply), topic).value;
    ReadmeListsFiles(topic, g.keywords, g.files);
  }

  /** The lines above the bullets list no file. */
  lemma HeadUnlisted(topic: string, keywords: seq<string>)
    ensures ListedFiles(["# " + topic, ""] + KeywordLines(keywords) + [FilesHeading]) == []
  {
    var head := ["# " + topic, ""] + KeywordLines(keywords) + [FilesHeading];
    HeadingsClean();
    forall i | 0 <= i < |head| ensures |head[i]| < 2 || head[i][0] != '-' {
      if i == 0 {
        assert head[0] == "# " + topic;
      } else if i == |head| - 1 {
        assert head[i] == FilesHeading;
      } else if i == 2 && |keywords| > 0 {
        assert head[i] == KeywordsHeading + Join(keywords, ", ");
      }
    }
    NoneListed(head);
  }

  /** Lines none of which starts with "- " list no file. */
  lemma {:induction false} NoneListed(lines: seq<string>)
    requires forall i :: 0 <= i < |lines| ==> |lines[i]| < 2 || lines[i][0] != '-'
    ensures ListedFiles(lines) == []
  {
    if |lines| > 0 {
      NoneListed(lines[1..]);
    }
  }

  /** `next((item for item in file_infos if item['filename'] == f), None)`. */
  function FirstMatch(infos: seq<FileInfo>, f: string): (r: Option<FileInfo>)
    ensures r.None? <==> forall i :: 0 <= i < |infos| ==> infos[i].filename != f
    ensures r.Some? ==> r.value in infos && r.value.filename == f
  {
    if |infos| == 0 then None
    else if infos[0].filename == f then Some(infos[0])
    else FirstMatch(infos[1..], f)
  }

  /** With unique file names the match is the one record of that name. */
  lemma {:induction false} FirstMatchUnique(infos: seq<FileInfo>, x: FileInfo)
    requires UniqueFilenames(infos) && x in infos
    ensures FirstMatch(infos, x.filename) == Some(x)
  {
    if infos[0] != x {
      assert UniqueFilenames(infos[1..]);
      FirstMatchUnique(infos[1..], x);
    }
  }

  /** The copies of a group's analysed files, in the group's order; a listed
      name that no record carries is skipped. */
  function Copies(folder: string, files: seq<string>, infos: seq<FileInfo>): seq<Written> {
    if |files| == 0 then []
    else
      var rest := Copies(folder, files[1..], infos);
      match FirstMatch(infos, files[0])
      case None => rest
      case Some(m) => [Written(folder, files[0], m.content)] + rest
  }

  /** A copy is written for a listed file exactly when some record carries its
      name, and it holds that record's content. */
  lemma {:induction false} CopiesSpec(folder: string, files: seq<string>, infos: seq<FileInfo>)
    ensures forall w :: w in Copies(folder, files, infos) <==>
      && w.folder == folder && w.name in files
      && FirstMatch(infos, w.name).Some?
      && w.content == FirstMatch(infos, w.name).value.content
  {
    if |files| > 0 {
      CopiesSpec(folder, files[1..], infos);
      assert forall f :: f in files <==> f == files[0] || f in files[1..];
    }
  }

  /** The README file of a group, in the group's folder. */
  function ReadmeFile(topic: string, g: GroupReply.Group): Written {
    Written(FolderName(topic), ReadmeName, Readme(topic, g.keywords, g.files))
  }

  /** What one group contributes: its README, then its copies. */
  function GroupOutput(topic: string, g: GroupReply.Group, infos: seq<FileInfo>): seq<Written> {
    [ReadmeFile(topic, g)] + Copies(FolderName(topic), g.files, infos)
  }

  /** `saved_files`, group by group in the grouping's order. The archive is
      offered only when this is non-empty. */
  function SavedFiles(grouped: seq<Entry<string, GroupReply.Group>>, infos: seq<FileInfo>): (r: seq<Written>)
    ensures |r| >= |grouped|
    ensures r == [] <==> grouped == []
  {
    if |grouped| == 0 then []
    else
      var last := grouped[|grouped| - 1];
      SavedFiles(grouped[..|grouped| - 1], infos) + GroupOutput(last.key, last.value, infos)
  }

  /** Every group's README is saved. */
  lemma {:induction false} SavedReadmes(grouped: seq<Entry<string, GroupReply.Group>>, infos: seq<FileInfo>)
    ensures forall j :: 0 <= j < |grouped| ==>
      ReadmeFile(grouped[j].key, grouped[j].value) in SavedFiles(grouped, infos)
  {
    if |grouped| > 0 {
      var n := |grouped| - 1;
      var init := grouped[..n];
      SavedReadmes(init, infos);
      var prev, out := SavedFiles(init, infos), GroupOutput(grouped[n].key, grouped[n].value, infos);
      assert SavedFiles(grouped, infos) == prev + out;
      forall j | 0 <= j < |grouped| ensures ReadmeFile(grouped[j].key, grouped[j].value) in prev + out {
        if j < n {
          assert ReadmeFile(grouped[j].key, grouped[j].value) in prev by {
            assert init[j] == grouped[j];
          }
        } else {
          assert out[0] == ReadmeFile(grouped[j].key, grouped[j].value);
        }
      }
    }
  }

  /** Every saved file comes from one of the groups: its README or a copy of one of its files. */
  lemma {:induction false} SavedFromGroups(grouped: seq<Entry<string, GroupReply.Group>>, infos: seq<FileInfo>)
    ensures forall w :: w in SavedFiles(grouped, infos) ==>
      exists j :: 0 <= j < |grouped| && w in GroupOutput(grouped[j].key, grouped[j].value, infos)
  {
    if |grouped| > 0 {
      var n := |grouped| - 1;
      var init := grouped[..n];
      SavedFromGroups(init, infos);
      var r := SavedFiles(grouped, infos);
      assert r == SavedFiles(init, infos) + GroupOutput(grouped[n].key, grouped[n].value, infos);
      forall w | w in r
        ensures exists j :: 0 <= j < |grouped| && w in GroupOutput(grouped[j].key, grouped[j].value, infos)
      {
        if w in SavedFiles(init, infos) {
          var j :| 0 <= j < n && w in GroupOutput(init[j].key, init[j].value, infos);
          assert init[j] == grouped[j];
        } else {
          assert w in GroupOutput(grouped[n].key, grouped[n].value, infos);
        }
      }
    }
  }

  /** The copies do not depend on the order the records were collected in:
      two collections with the same records and unique names give the same files. */
  lemma {:induction false} CopiesIgnoreOrder(folder: string, files: seq<string>, infos: seq<FileInfo>, infos': seq<FileInfo>)
    requires UniqueFilenames(infos) && UniqueFilenames(infos')
    requires forall x :: x in infos <==> x in infos'
    ensures Copies(folder, files, infos) == Copies(folder, files, infos')
  {
    if |files| > 0 {
      CopiesIgnoreOrder(folder, files[1..], infos, infos');
      var m := FirstMatch(infos, files[0]);
      if m.Some? {
        FirstMatchUnique(infos', m.value);
      } else if FirstMatch(infos', files[0]).Some? {
        FirstMatchUnique(infos, FirstMatch(infos', files[0]).value);
      }
    }
  }

  /** For a fixed grouping reply, whatever order the analysis requests
      complete in, the saved files are the same. */
  lemma {:induction false} SavedFilesIgnoreCompletionOrder(
    grouped: seq<Entry<string, GroupReply.Group>>,
    submitted: seq<Upload>, replies: seq<Option<string>>, order: seq<nat>, order': seq<nat>)
    requires |replies| == |submitted| && Distinct(Names(submitted))
    requires IsCompletionOrder(order, |submitted|) && IsCompletionOrder(order', |submitted|)
    ensures SavedFiles(grouped, Collect(submitted, replies, order))
         == SavedFiles(grouped, Collect(submitted, replies, order'))
  {
    if |grouped| > 0 {
      var infos := Collect(submitted, replies, order);
      var infos' := Collect(submitted, replies, order');
      CollectSpec(submitted, replies, order);
      CollectSpec(submitted, replies, order');
      SavedFilesIgnoreCompletionOrder(grouped[..|grouped| - 1], submitted, replies, order, order');
      var g := grouped[|grouped| - 1];
      CopiesIgnoreOrder(FolderName(g.key), g.value.files, infos, infos');
    }
  }

  /** The whole run after the uploads: submit each name once, collect the
      analysed records in completion order, read the grouping reply, and
      write the archive. `ask` stands for the analysis request of an upload
      and `groupingReply` for the grouping request's reply (`None` when it
      raised). The archive is empty exactly when the grouping is. The page
      runs it only once at least one file is uploaded. */
  method BuildArchive(uploads: seq<Upload>, ask: Upload -> Option<string>, order: seq<nat>,
                      groupingReply: Option<string>)
    returns (saved: seq<Written>)
    requires |uploads| > 0
    requires IsCompletionOrder(order, |FirstOfEachName(uploads)|)
    ensures var submitted := FirstOfEachName(uploads);
      var replies := seq(|submitted|, i requires 0 <= i < |submitted| => ask(submitted[i]));
      saved == SavedFiles(GroupReply.ParseReply(groupingReply), Collect(submitted, replies, order))
    ensures saved == [] <==> GroupReply.ParseReply(groupingReply) == []
  {
    var submitted := SubmitOnce(uploads);
    var replies := seq(|submitted|, i requires 0 <= i < |submitted| => ask(submitted[i]));
    var infos := Collect(submitted, replies, order);
    var grouped := GroupReply.ParseReply(groupingReply);
    saved := SavedFiles(grouped, infos);
  }
}

=== FILE: clustering.dfy ===
/** The embedding-based classifier after extraction: the truncated text sent
    for embedding, the cluster-count slider, the bucketing of documents by
    cluster label, and the prompt that asks for a cluster's common topic.
    The embedding service, KMeans and the chat service are not modelled: the
    cluster labels are an argument, one per document. */
module Clustering {
  import opened Wrappers
  import opened Text
  import opened Seqs
  import opened OrderedMap
  import opened Extraction

  /** At most this many characters of a document are embedded. */
  const EmbeddingLimit: nat := 8000

  /** At most this many characters of the joined cluster texts go into the prompt. */
  const PromptLimit: nat := 4000

  const PromptHeader: string := "다음 문서들의 공통 주제를 간결하게 요약해 주세요:\n\n"
  const DocumentSeparator: string := "\n\n"

  /** `text[:8000]`. */
  function EmbeddingInput(text: string): (r: string)
    ensures |r| == Min(EmbeddingLimit, |text|) && StartsWith(text, r)
    ensures |text| <= EmbeddingLimit ==> r == text
  {
    Truncate(text, EmbeddingLimit)
  }

  /** The prompt of `summarize_cluster`: the fixed header, then the cluster's
      texts joined by blank lines, cut to 4000 characters. */
  function SummaryPrompt(docs: seq<string>): (r: string)
    ensures StartsWith(r, PromptHeader)
    ensures |r| == |PromptHeader| + Min(PromptLimit, |Join(docs, DocumentSeparator)|)
    ensures StartsWith(Join(docs, DocumentSeparator), r[|PromptHeader|..])
    ensures |Join(docs, DocumentSeparator)| <= PromptLimit ==> r == PromptHeader + Join(docs, DocumentSeparator)
  {
    var body := Truncate(Join(docs, DocumentSeparator), PromptLimit);
    assert (PromptHeader + body)[|PromptHeader|..] == body;
    PromptHeader + body
  }

  /** Streamlit's `slider(label, lo, hi, default)` with an integer default.
      It does not raise over its bounds: it lowers the minimum to
      `min(lo, hi)`, then widens the range until it holds the default. The
      result is the user's pick when that lies in the widened range, and the
      default otherwise, in particular before the user has moved the slider. */
  function Slider(lo: int, hi: int, default: int, pick: Option<int>): (r: int)
    ensures Min(Min(lo, hi), default) <= r <= Max(hi, default)
    ensures lo <= default <= hi ==> lo <= r <= hi
    ensures pick.None? ==> r == default
    ensures pick.Some? && lo <= pick.value <= hi ==> r == pick.value
    ensures r == default || (pick.Some? && r == pick.value)
  {
    var low := Min(lo, hi);
    var high := Max(low, hi);
    var low', high' := Min(default, low), Max(default, high);
    if pick.Some? && low' <= pick.value <= high' then pick.value else default
  }

  const MinClusters: int := 2
  const MaxClusters: int := 10
  const DefaultClusters: int := 3

  /** `KMeans(n_clusters=k).fit_predict` on `samples` points raises unless
      there is at least one cluster and no more clusters than points. */
  predicate KMeansAccepts(k: int, samples: nat) {
    1 <= k <= samples
  }

  /** The cluster count as written: the slider over `[2, min(10, n)]` with the
      default 3, whatever the number `n` of documents. From three documents
      on the range holds the default and the count lies in it; below three
      the range is widened to hold 3. */
  function ClusterCountAsWritten(n: nat, pick: Option<int>): (r: int)
    ensures n >= DefaultClusters ==> MinClusters <= r <= Min(MaxClusters, n)
    ensures n < DefaultClusters ==> Min(MinClusters, n) <= r <= DefaultClusters
    ensures pick.None? ==> r == DefaultClusters
  {
    Slider(MinClusters, Min(MaxClusters, n), DefaultClusters, pick)
  }

  /** With fewer than three documents and the slider left alone, the slider
      returns 3, more clusters than documents, and KMeans raises. With two
      documents a user who moves the slider to 2 gets a count KMeans accepts. */
  lemma FewDocumentsFail(n: nat, pick: Option<int>)
    requires n < DefaultClusters && pick.None?
    ensures ClusterCountAsWritten(n, pick) == DefaultClusters
    ensures !KMeansAccepts(ClusterCountAsWritten(n, pick), n)
    ensures n == MinClusters ==> KMeansAccepts(ClusterCountAsWritten(n, Some(MinClusters)), n)
  {
  }

  /** The cluster count with the default clamped into `[2, min(10, n)]`, and
      no count when there are fewer than two documents to cluster. */
  function ClusterCount(n: nat, pick: Option<int>): (r: Option<int>)
    ensures r.Some? ==> MinClusters <= r.value <= Min(MaxClusters, n)
  {
    if n < MinClusters then None
    else
      var hi := Min(MaxClusters, n);
      Some(Slider(MinClusters, hi, Min(DefaultClusters, hi), pick))
  }

  /** The clamped count exists exactly when there are two documents or more,
      KMeans always accepts it, and from three documents on it is the count
      the source picks. With two documents it defaults to two clusters. */
  lemma ClusterCountSpec(n: nat, pick: Option<int>)
    ensures ClusterCount(n, pick).Some? <==> n >= MinClusters
    ensures ClusterCount(n, pick).Some? ==> KMeansAccepts(ClusterCount(n, pick).value, n)
    ensures n >= DefaultClusters ==> ClusterCount(n, pick) == Some(ClusterCountAsWritten(n, pick))
    ensures n == MinClusters && pick.None? ==> ClusterCount(n, pick) == Some(MinClusters)
  {
  }

  /** A document paired with its cluster label by `zip`. */
  datatype Labelled = Labelled(cluster: int, doc: Document)

  /** `zip(labels, names, texts)`: as many pairs as the shorter side has. */
  function Zip(labels: seq<int>, docs: seq<Document>): (r: seq<Labelled>)
    ensures |r| == Min(|labels|, |docs|)
    ensures forall i :: 0 <= i < |r| ==> r[i] == Labelled(labels[i], docs[i])
  {
    seq(Min(|labels|, |docs|), i requires 0 <= i < Min(|labels|, |docs|) => Labelled(labels[i], docs[i]))
  }

  function LabelsOf(ps: seq<Labelled>): (r: seq<int>)
    ensures |r| == |ps|
    ensures forall i :: 0 <= i < |ps| ==> r[i] == ps[i].cluster
  {
    seq(|ps|, i requires 0 <= i < |ps| => ps[i].cluster)
  }

  function DocsOf(ps: seq<Labelled>): (r: seq<Document>)
    ensures |r| == |ps|
    ensures forall i :: 0 <= i < |ps| ==> r[i] == ps[i].doc
  {
    seq(|ps|, i requires 0 <= i < |ps| => ps[i].doc)
  }

  /** The bucketing loop: `clustered_docs.setdefault(cluster, []).append(doc)`. */
  function Buckets(ps: seq<Labelled>): seq<Entry<int, seq<Document>>> {
    if |ps| == 0 then []
    else
      AddToBucket(Buckets(ps[..|ps| - 1]), ps[|ps| - 1])
  }

  /** Reference: the documents carrying `cluster`, in input order. */
  function WithLabel(ps: seq<Labelled>, cluster: int): seq<Document> {
    if |ps| == 0 then []
    else
      var prev := WithLabel(ps[..|ps| - 1], cluster);
      if ps[|ps| - 1].cluster == cluster then prev + [ps[|ps| - 1].doc] else prev
  }

  /** One step of the bucketing loop, on an arbitrary map. */
  function AddToBucket(m: seq<Entry<int, seq<Document>>>, p: Labelled): seq<Entry<int, seq<Document>>> {
    Put(m, p.cluster, Get(m, p.cluster).GetOr([]) + [p.doc])
  }

  lemma BucketsSnoc(ps: seq<Labelled>)
    requires |ps| > 0
    ensures Buckets(ps) == AddToBucket(Buckets(ps[..|ps| - 1]), ps[|ps| - 1])
    ensures LabelsOf(ps) == LabelsOf(ps[..|ps| - 1]) + [ps[|ps| - 1].cluster]
    ensures DocsOf(ps) == DocsOf(ps[..|ps| - 1]) + [ps[|ps| - 1].doc]
  {
    LabelsSnoc(ps);
    DocsSnoc(ps);
  }

  lemma LabelsSnoc(ps: seq<Labelled>)
    requires |ps| > 0
    ensures LabelsOf(ps) == LabelsOf(ps[..|ps| - 1]) + [ps[|ps| - 1].cluster]
  {
  }

  lemma DocsSnoc(ps: seq<Labelled>)
    requires |ps| > 0
    ensures DocsOf(ps) == DocsOf(ps[..|ps| - 1]) + [ps[|ps| - 1].doc]
  {
  }

  /** The buckets appear in the order their labels are first seen. */
  lemma {:induction false} BucketsKeys(ps: seq<Labelled>)
    ensures Keys(Buckets(ps)) == FirstSeen(LabelsOf(ps))
  {
    if |ps| > 0 {
      var n := |ps| - 1;
      BucketsKeys(ps[..n]);
      BucketsSnoc(ps);
      var labels := LabelsOf(ps);
      assert labels[..n] == LabelsOf(ps[..n]);
    }
  }

  /** Each cluster seen has exactly its documents, in input order; no other cluster has a bucket. */
  lemma {:induction false} BucketsContents(ps: seq<Labelled>, cluster: int)
    ensures Get(Buckets(ps), cluster) == if cluster in LabelsOf(ps) then Some(WithLabel(ps, cluster)) else None
  {
    if |ps| > 0 {
      var n := |ps| - 1;
      var init, p := ps[..n], ps[n];
      BucketsContents(init, cluster);
      BucketsSnoc(ps);
      if p.cluster == cluster {
        if cluster !in LabelsOf(init) {
          WithLabelAbsent(init, cluster);
        }
        assert WithLabel(ps, cluster) == WithLabel(init, cluster) + [p.doc];
      } else {
        assert WithLabel(ps, cluster) == WithLabel(init, cluster);
      }
    }
  }

  lemma {:induction false} WithLabelAbsent(ps: seq<Labelled>, cluster: int)
    requires cluster !in LabelsOf(ps)
    ensures WithLabel(ps, cluster) == []
  {
    if |ps| > 0 {
      LabelsSnoc(ps);
      WithLabelAbsent(ps[..|ps| - 1], cluster);
    }
  }

  /** Every document lands in one bucket once: the buckets together hold
      exactly the documents, counted with multiplicity. */
  lemma {:induction false} BucketsPartition(ps: seq<Labelled>)
    ensures multiset(Flatten(Buckets(ps))) == multiset(DocsOf(ps))
  {
    if |ps| > 0 {
      var n := |ps| - 1;
      var m, p := Buckets(ps[..n]), ps[n];
      BucketsPartition(ps[..n]);
      BucketsSnoc(ps);
      FlattenAppend(m, p.cluster, p.doc);
      assert Buckets(ps) == Put(m, p.cluster, Get(m, p.cluster).GetOr([]) + [p.doc]);
      assert multiset(DocsOf(ps)) == multiset(DocsOf(ps[..n])) + multiset{p.doc};
    }
  }

  /** The buckets of zipped labels and documents: keys in first-seen order,
      each holding its label's documents in order, all documents once. */
  lemma ZippedBuckets(labels: seq<int>, docs: seq<Document>)
    ensures var ps := Zip(labels, docs);
      && Keys(Buckets(ps)) == FirstSeen(LabelsOf(ps))
      && multiset(Flatten(Buckets(ps))) == multiset(docs[..Min(|labels|, |docs|)])
      && forall c :: Get(Buckets(ps), c) == (if c in LabelsOf(ps) then Some(WithLabel(ps, c)) else None)
  {
    var ps := Zip(labels, docs);
    BucketsKeys(ps);
    BucketsPartition(ps);
    ZipDocs(labels, docs);
    AllBucketsContents(ps);
  }

  /** The documents of the zipped pairs are the documents that found a label. */
  lemma ZipDocs(labels: seq<int>, docs: seq<Document>)
    ensures DocsOf(Zip(labels, docs)) == docs[..Min(|labels|, |docs|)]
  {
  }

  /** `BucketsContents` for every cluster at once. */
  lemma AllBucketsContents(ps: seq<Labelled>)
    ensures forall c :: Get(Buckets(ps), c) == if c in LabelsOf(ps) then Some(WithLabel(ps, c)) else None
  {
    forall c ensures Get(Buckets(ps), c) == if c in LabelsOf(ps) then Some(WithLabel(ps, c)) else None {
      BucketsContents(ps, c);
    }
  }

  /** A document is among the documents carrying its own label. */
  lemma {:induction false} WithLabelHas(ps: seq<Labelled>, i: int)
    requires 0 <= i < |ps|
    ensures ps[i].doc in WithLabel(ps, ps[i].cluster)
  {
    var n := |ps| - 1;
    if i < n {
      WithLabelHas(ps[..n], i);
    }
  }

  /** With one label per document, the buckets together are a permutation of
      the documents and each document sits in the bucket of its own label. */
  lemma LabelledBuckets(labels: seq<int>, docs: seq<Document>)
    requires |labels| == |docs|
    ensures var buckets := Buckets(Zip(labels, docs));
      && multiset(Flatten(buckets)) == multiset(docs)
      && forall i :: 0 <= i < |docs| ==> Get(buckets, labels[i]).Some? && docs[i] in Get(buckets, labels[i]).value
  {
    var ps := Zip(labels, docs);
    BucketsPartition(ps);
    ZipDocs(labels, docs);
    assert docs[..|docs|] == docs;
    forall i | 0 <= i < |docs|
      ensures Get(Buckets(ps), labels[i]).Some? && docs[i] in Get(Buckets(ps), labels[i]).value
    {
      assert LabelsOf(ps)[i] == labels[i];
      BucketsContents(ps, labels[i]);
      WithLabelHas(ps, i);
    }
  }

  /** The bucketing loop over `zip(labels, file_names, docs_text)`. */
  method GroupByLabel(labels: seq<int>, docs: seq<Document>) returns (buckets: seq<Entry<int, seq<Document>>>)
    ensures buckets == Buckets(Zip(labels, docs))
    ensures Keys(buckets) == FirstSeen(LabelsOf(Zip(labels, docs)))
    ensures multiset(Flatten(buckets)) == multiset(docs[..Min(|labels|, |docs|)])
    ensures forall c :: (Get(buckets, c)
      == if c in LabelsOf(Zip(labels, docs)) then Some(WithLabel(Zip(labels, docs), c)) else None)
  {
    var ps := Zip(labels, docs);
    buckets := [];
    var i := 0;
    while i < |ps|
      invariant 0 <= i <= |ps|
      invariant buckets == Buckets(ps[..i])
    {
      assert ps[..i + 1][..i] == ps[..i];
      BucketsSnoc(ps[..i + 1]);
      var cluster := ps[i].cluster;
      var bucket := match Get(buckets, cluster) case Some(b) => b case None => [];
      buckets := Put(buckets, cluster, bucket + [ps[i].doc]);
      i := i + 1;
    }
    assert ps[..i] == ps;
    ZippedBuckets(labels, docs);
  }

  /** What is sent for embedding: each kept text, cut to the embedding limit. */
  function EmbeddingInputs(texts: seq<string>): (r: seq<string>)
    ensures |r| == |texts|
    ensures forall i :: 0 <= i < |texts| ==> r[i] == EmbeddingInput(texts[i])
  {
    seq(|texts|, i requires 0 <= i < |texts| => EmbeddingInput(texts[i]))
  }

  /** The texts of the documents, in order. */
  function Texts(docs: seq<Document>): (r: seq<string>)
    ensures |r| == |docs|
    ensures forall i :: 0 <= i < |docs| ==> r[i] == docs[i].text
  {
    seq(|docs|, i requires 0 <= i < |docs| => docs[i].text)
  }

  /** `cluster_embeddings` and the bucketing loop for a chosen count: `None`
      when KMeans raises, otherwise the buckets of the documents labelled by
      `kmeans` (the embedding service and KMeans together). */
  method ClusterKept(docs: seq<Document>, k: int, kmeans: (seq<string>, int) -> seq<int>)
    returns (r: Option<seq<Entry<int, seq<Document>>>>)
    ensures r.None? <==> !KMeansAccepts(k, |docs|)
    ensures r.Some? ==> r.value == Buckets(Zip(kmeans(EmbeddingInputs(Texts(docs)), k), docs))
    ensures var labels := kmeans(EmbeddingInputs(Texts(docs)), k);
      r.Some? && |labels| == |docs| ==>
        && multiset(Flatten(r.value)) == multiset(docs)
        && forall i :: 0 <= i < |docs| ==> Get(r.value, labels[i]).Some? && docs[i] in Get(r.value, labels[i]).value
  {
    if !(1 <= k <= |docs|) {
      return None;
    }
    var labels := kmeans(EmbeddingInputs(Texts(docs)), k);
    var buckets := GroupByLabel(labels, docs);
    if |labels| == |docs| {
      LabelledBuckets(labels, docs);
    }
    return Some(buckets);
  }

  /** The kept documents of the uploads, as the extraction loop produces them. */
  method KeptDocuments(files: seq<UploadedFile>, markdown: string -> string) returns (docs: seq<Document>)
    ensures docs == Kept(Extracted(files, markdown))
    ensures forall i :: 0 <= i < |docs| ==> docs[i].text != ""
  {
    var docsText, fileNames := KeepNonEmpty(files, markdown);
    docs := seq(|docsText|, i requires 0 <= i < |docsText| => Document(fileNames[i], docsText[i]));
  }

  /** From the uploads to the buckets as written: extract and filter, take the
      slider's count with the default 3, then cluster and bucket. `None` when
      KMeans raises, which happens exactly when the count is not between 1
      and the number of documents: never from three documents on, always
      below three while the slider is left alone. The page runs it only
      once at least one file is uploaded. */
  method ClusterDocuments(files: seq<UploadedFile>, markdown: string -> string, pick: Option<int>,
                          kmeans: (seq<string>, int) -> seq<int>)
    returns (r: Option<seq<Entry<int, seq<Document>>>>)
    requires |files| > 0
    ensures var docs := Kept(Extracted(files, markdown));
      var k := ClusterCountAsWritten(|docs|, pick);
      && (r.None? <==> !KMeansAccepts(k, |docs|))
      && (|docs| >= DefaultClusters ==> r.Some? && MinClusters <= k <= Min(MaxClusters, |docs|))
      && (|docs| < DefaultClusters && pick.None? ==> r.None?)
      && (r.Some? ==> r.value == Buckets(Zip(kmeans(EmbeddingInputs(Texts(docs)), k), docs)))
  {
    var docs := KeptDocuments(files, markdown);
    var k := ClusterCountAsWritten(|docs|, pick);
    r := ClusterKept(docs, k, kmeans);
  }

  /** The same pipeline with the clamped default: it gives buckets exactly
      when at least two documents have text. */
  method ClusterDocumentsClamped(files: seq<UploadedFile>, markdown: string -> string, pick: Option<int>,
                                 kmeans: (seq<string>, int) -> seq<int>)
    returns (r: Option<seq<Entry<int, seq<Document>>>>)
    requires |files| > 0
    ensures var docs := Kept(Extracted(files, markdown));
      && (r.None? <==> |docs| < MinClusters)
      && (r.Some? ==>
            var k := ClusterCount(|docs|, pick).value;
            && MinClusters <= k <= Min(MaxClusters, |docs|)
            && r.value == Buckets(Zip(kmeans(EmbeddingInputs(Texts(docs)), k), docs)))
  {
    var docs := KeptDocuments(files, markdown);
    ClusterCountSpec(|docs|, pick);
    var count := ClusterCount(|docs|, pick);
    if count.None? {
      return None;
    }
    r := ClusterKept(docs, count.value, kmeans);
  }
}

=== FILE: extraction.dfy ===
/** Text extraction in the embedding-based classifier: the file's lower-cased
    name picks the reader, and files whose text comes out empty are dropped.
    The PDF and Markdown libraries are not modelled: a PDF file carries the
    per-page results of its text extractor (`None` where a page has no text),
    and the Markdown renderer is a function argument. */
module Extraction {
  import opened Wrappers
  import opened Text

  /** An uploaded file: its name, its bytes decoded as UTF-8, and what the PDF
      reader extracts from each page. */
  datatype UploadedFile = UploadedFile(name: string, decoded: string, pdfPages: seq<Option<string>>)

  /** A kept document: the file's name and its extracted text. */
  datatype Document = Document(name: string, text: string)

  /** The extensions with a reader, in the order they are tried. */
  const PdfExtension: string := ".pdf"
  const MarkdownExtension: string := ".md"
  const TextExtension: string := ".txt"

  /** `page.extract_text() or ""` for each page. */
  function PageTexts(pages: seq<Option<string>>): (r: seq<string>)
    ensures |r| == |pages|
    ensures forall i :: 0 <= i < |pages| ==> r[i] == pages[i].GetOr("")
  {
    seq(|pages|, i requires 0 <= i < |pages| => pages[i].GetOr(""))
  }

  /** The pages' texts joined with newlines. */
  function PdfText(pages: seq<Option<string>>): string {
    Join(PageTexts(pages), "\n")
  }

  /** `extract_text`. */
  function ExtractText(f: UploadedFile, markdown: string -> string): string {
    var name := Lower(f.name);
    if EndsWith(name, PdfExtension) then PdfText(f.pdfPages)
    else if EndsWith(name, MarkdownExtension) then markdown(f.decoded)
    else if EndsWith(name, TextExtension) then f.decoded
    else ""
  }

  /** The name ends with one of the extensions, in any letter case. */
  predicate Supported(name: string) {
    var lower := Lower(name);
    EndsWith(lower, PdfExtension) || EndsWith(lower, MarkdownExtension) || EndsWith(lower, TextExtension)
  }

  /** A name ending in ".pdf" ends in neither ".md" nor ".txt", and a name
      ending in ".md" does not end in ".txt": at most one reader applies, so
      the order of the tests never decides between two of them. */
  lemma ExtensionsExclusive(name: string)
    ensures EndsWith(name, PdfExtension) ==> !EndsWith(name, MarkdownExtension) && !EndsWith(name, TextExtension)
    ensures EndsWith(name, MarkdownExtension) ==> !EndsWith(name, TextExtension)
  {
    if EndsWith(name, PdfExtension) {
      assert name[|name| - 1] == 'f';
    }
    if EndsWith(name, MarkdownExtension) {
      assert name[|name| - 1] == 'd';
    }
  }

  /** The reader is chosen by extension alone, without regard to letter case:
      a file of unsupported name yields no text, a text file yields its content
      unchanged, a Markdown file its rendering, and a PDF its pages' texts. */
  lemma ExtractTextByKind(f: UploadedFile, markdown: string -> string)
    ensures !Supported(f.name) ==> ExtractText(f, markdown) == ""
    ensures EndsWith(Lower(f.name), TextExtension) ==> ExtractText(f, markdown) == f.decoded
    ensures EndsWith(Lower(f.name), MarkdownExtension) ==> ExtractText(f, markdown) == markdown(f.decoded)
    ensures EndsWith(Lower(f.name), PdfExtension) ==> ExtractText(f, markdown) == PdfText(f.pdfPages)
    ensures ExtractText(f, markdown) != "" ==> Supported(f.name)
  {
    ExtensionsExclusive(Lower(f.name));
  }

  /** A PDF none of whose pages yields text (`None` or `""`) still has text
      made of the newlines between its pages, so with two pages or more it is kept. */
  lemma {:induction false} BlankPdfText(pages: seq<Option<string>>)
    requires forall i :: 0 <= i < |pages| ==> pages[i].GetOr("") == ""
    ensures |PdfText(pages)| == if |pages| == 0 then 0 else |pages| - 1
    ensures forall i :: 0 <= i < |PdfText(pages)| ==> PdfText(pages)[i] == '\n'
  {
    if |pages| > 1 {
      BlankPdfText(pages[1..]);
      assert PageTexts(pages[1..]) == PageTexts(pages)[1..];
    }
  }

  /** Every file with its extracted text, in upload order. */
  function Extracted(files: seq<UploadedFile>, markdown: string -> string): (r: seq<Document>)
    ensures |r| == |files|
    ensures forall i :: 0 <= i < |files| ==> r[i] == Document(files[i].name, ExtractText(files[i], markdown))
  {
    seq(|files|, i requires 0 <= i < |files| => Document(files[i].name, ExtractText(files[i], markdown)))
  }

  /** Reference: the documents with non-empty text, in their order. */
  function Kept(docs: seq<Document>): seq<Document> {
    if |docs| == 0 then []
    else
      var prev := Kept(docs[..|docs| - 1]);
      var d := docs[|docs| - 1];
      if d.text != "" then prev + [d] else prev
  }

  /** A document is kept exactly when it is among the documents and its text is non-empty. */
  lemma {:induction false} KeptMembers(docs: seq<Document>)
    ensures forall d :: d in Kept(docs) <==> d in docs && d.text != ""
  {
    if |docs| > 0 {
      var n := |docs| - 1;
      KeptMembers(docs[..n]);
      assert docs == docs[..n] + [docs[n]];
    }
  }

  /** Filtering works document by document: the documents kept from two
      batches are those kept from the first followed by those kept from the second. */
  lemma {:induction false} KeptAppend(a: seq<Document>, b: seq<Document>)
    ensures Kept(a + b) == Kept(a) + Kept(b)
  {
    if |b| == 0 {
      assert a + b == a;
    } else {
      var n := |b| - 1;
      KeptAppend(a, b[..n]);
      assert (a + b)[..|a + b| - 1] == a + b[..n];
    }
  }

  /** The loop that fills `docs_text` and `file_names`: the two lists stay
      aligned, hold exactly the files with non-empty text, in upload order. */
  method KeepNonEmpty(files: seq<UploadedFile>, markdown: string -> string)
    returns (docsText: seq<string>, fileNames: seq<string>)
    ensures |docsText| == |fileNames| == |Kept(Extracted(files, markdown))|
    ensures forall i :: 0 <= i < |docsText| ==>
      Kept(Extracted(files, markdown))[i] == Document(fileNames[i], docsText[i]) && docsText[i] != ""
  {
    var docs := Extracted(files, markdown);
    docsText, fileNames := [], [];
    var i := 0;
    while i < |files|
      invariant 0 <= i <= |files|
      invariant |docsText| == |fileNames| == |Kept(docs[..i])|
      invariant forall j :: 0 <= j < |docsText| ==>
        Kept(docs[..i])[j] == Document(fileNames[j], docsText[j]) && docsText[j] != ""
    {
      var text := ExtractText(files[i], markdown);
      assert docs[..i + 1][..i] == docs[..i];
      assert docs[i] == Document(files[i].name, text);
      if text != "" {
        docsText := docsText + [text];
        fileNames := fileNames + [files[i].name];
      }
      i := i + 1;
    }
    assert docs[..i] == docs;
  }
}

=== FILE: group_reply.dfy ===
/** The parser of `get_grouped_topics`: it reads the model's free-text
    grouping reply into an insertion-ordered dictionary from group name to
    its files and keywords. The request is not modelled; its reply is an
    argument, `None` when the request raised (the source then returns `{}`). */
module GroupReply {
  import opened Wrappers
  import opened Text
  import opened Seqs
  import opened OrderedMap

  datatype Group = Group(files: seq<string>, keywords: seq<string>)

  /** The loop variables `groups` and `current_group`. */
  datatype State = State(groups: seq<Entry<string, Group>>, current: Option<string>)

  const KeywordLabel: string := "키워드:"
  const FileMarker: string := ".md"

  /** A line that opens a group: it holds a colon and ".md". */
  predicate IsGroupLine(line: string) {
    ':' in line && Contains(line, FileMarker)
  }

  /** The text before the first colon, stripped. */
  function GroupName(line: string): string
    requires IsGroupLine(line)
  {
    Strip(line[..FirstIndex(line, ':')])
  }

  /** The comma-separated pieces after the first colon, stripped, empty ones dropped. */
  function GroupFiles(line: string): seq<string>
    requires IsGroupLine(line)
  {
    StripNonEmpty(Split(AfterFirst(line, ':'), ','))
  }

  /** Each listed file is a non-empty, stripped piece without commas. */
  lemma GroupFilesClean(line: string)
    requires IsGroupLine(line)
    ensures forall f :: f in GroupFiles(line) ==> f != "" && Strip(f) == f && ',' !in f
  {
    var parts := Split(AfterFirst(line, ':'), ',');
    forall f | f in GroupFiles(line) ensures f != "" && Strip(f) == f && ',' !in f {
      var i :| 0 <= i < |parts| && StripEach(parts)[i] == f;
      StripIdempotent(parts[i]);
      StripKeepsAbsent(parts[i], ',');
    }
  }

  /** A line that is not a group line but mentions the keyword label. */
  predicate IsKeywordLine(line: string) {
    !IsGroupLine(line) && Contains(line, KeywordLabel)
  }

  /** The comma-separated pieces after the line's first colon, stripped; empty ones are kept. */
  function LineKeywords(line: string): seq<string>
    requires IsKeywordLine(line)
  {
    assert KeywordLabel[3] == ':';
    ContainsChar(line, KeywordLabel, ':');
    StripEach(Split(AfterFirst(line, ':'), ','))
  }

  /** How one line of the reply is read, in the order the loop tests it. */
  datatype LineKind = Opens(name: string, files: seq<string>) | Keywords(keywords: seq<string>) | Other

  function Classify(line: string): LineKind {
    if IsGroupLine(line) then Opens(GroupName(line), GroupFiles(line))
    else if IsKeywordLine(line) then Keywords(LineKeywords(line))
    else Other
  }

  function ClassifyAll(lines: seq<string>): (r: seq<LineKind>)
    ensures |r| == |lines|
    ensures forall i :: 0 <= i < |lines| ==> r[i] == Classify(lines[i])
  {
    seq(|lines|, i requires 0 <= i < |lines| => Classify(lines[i]))
  }

  const Start: State := State([], None)

  /** One iteration of the loop over the reply's lines. A keyword line is
      attached to the open group only when its name is non-empty (Python
      truthiness). The open group is always a key (`OpenGroupIsKey`), so the
      `None` branch, a `KeyError` in the source, is never taken. */
  function Step(st: State, kind: LineKind): State {
    match kind
    case Opens(name, files) => State(Put(st.groups, name, Group(files, [])), Some(name))
    case Keywords(keywords) =>
      if st.current.Some? && st.current.value != "" then
        match Get(st.groups, st.current.value)
        case Some(g) => State(Put(st.groups, st.current.value, g.(keywords := keywords)), st.current)
        case None => st
      else st
    case Other => st
  }

  /** The loop over the classified lines, from `{}` and no open group. */
  function Run(kinds: seq<LineKind>): State {
    if |kinds| == 0 then Start
    else Step(Run(kinds[..|kinds| - 1]), kinds[|kinds| - 1])
  }

  /** The reply is stripped, cut at newlines, and its lines scanned. */
  function ParseReply(reply: Option<string>): seq<Entry<string, Group>> {
    match reply
    case None => []
    case Some(text) => Run(ClassifyAll(Split(Strip(text), '\n'))).groups
  }

  // ---------------------------------------------------------------------
  // A reference description of the result, by position in the reply.

  /** The names of the group lines, in reply order, repeats included. */
  function GroupNames(kinds: seq<LineKind>): seq<string> {
    if |kinds| == 0 then []
    else
      var last := kinds[|kinds| - 1];
      GroupNames(kinds[..|kinds| - 1]) + (if last.Opens? then [last.name] else [])
  }

  /** The index of the last group line with the given name. */
  function LastDefinition(kinds: seq<LineKind>, name: string): (r: Option<nat>)
    ensures r.Some? ==> r.value < |kinds| && kinds[r.value].Opens? && kinds[r.value].name == name
    ensures r.Some? ==> forall j :: r.value < j < |kinds| && kinds[j].Opens? ==> kinds[j].name != name
    ensures r.None? <==> forall j :: 0 <= j < |kinds| && kinds[j].Opens? ==> kinds[j].name != name
  {
    if |kinds| == 0 then None
    else if kinds[|kinds| - 1].Opens? && kinds[|kinds| - 1].name == name then Some(|kinds| - 1)
    else LastDefinition(kinds[..|kinds| - 1], name)
  }

  predicate IsOpens(kind: LineKind) {
    kind.Opens?
  }

  /** The name of the last group line, if any: the group a keyword line would go to. */
  function LastOpened(kinds: seq<LineKind>): Option<string> {
    match LastWhere(kinds, IsOpens)
    case None => None
    case Some(i) => Some(kinds[i].name)
  }

  predicate HasGroupLine(kinds: seq<LineKind>) {
    exists j :: 0 <= j < |kinds| && kinds[j].Opens?
  }

  /** Reading forward from just after a group line: the keywords of the last
      keyword line before the next group line, if there is one. */
  function KeywordRun(rest: seq<LineKind>): Option<seq<string>> {
    if |rest| == 0 || rest[0].Opens? then None
    else if KeywordRun(rest[1..]).Some? then KeywordRun(rest[1..])
    else if rest[0].Keywords? then Some(rest[0].keywords)
    else None
  }

  /** What the dictionary holds under `name`: the files of the last line that
      defines `name`, and the keywords of the last keyword line that follows
      it before any other group line; none for the empty name. */
  function Expected(kinds: seq<LineKind>, name: string): Option<Group> {
    match LastDefinition(kinds, name)
    case None => None
    case Some(i) =>
      var keywords := if name == "" then [] else KeywordRun(kinds[i + 1..]).GetOr([]);
      Some(Group(kinds[i].files, keywords))
  }

  /** Reading one more line after a run extends the run only while no group line has been met. */
  lemma {:induction false} KeywordRunSnoc(rest: seq<LineKind>, kind: LineKind)
    ensures KeywordRun(rest + [kind])
         == if HasGroupLine(rest) || !kind.Keywords? then KeywordRun(rest) else Some(kind.keywords)
  {
    var all := rest + [kind];
    if |rest| == 0 {
      assert all[1..] == [];
    } else {
      assert all[0] == rest[0];
      assert all[1..] == rest[1..] + [kind];
      KeywordRunSnoc(rest[1..], kind);
      if !rest[0].Opens? {
        assert HasGroupLine(rest) <==> HasGroupLine(rest[1..]) by {
          if HasGroupLine(rest) {
            var j :| 0 <= j < |rest| && rest[j].Opens?;
            assert rest[1..][j - 1] == rest[j];
          }
          if HasGroupLine(rest[1..]) {
            var j :| 0 <= j < |rest[1..]| && rest[1..][j].Opens?;
            assert rest[j + 1] == rest[1..][j];
          }
        }
      } else {
        assert HasGroupLine(rest) by { assert rest[0].Opens?; }
      }
    }
  }

  /** A run that already contains a group line is not extended. */
  lemma KeywordRunBlocked(kinds: seq<LineKind>, i: nat, later: nat, kind: LineKind)
    requires i < later < |kinds| && kinds[later].Opens?
    ensures KeywordRun(kinds[i + 1..] + [kind]) == KeywordRun(kinds[i + 1..])
  {
    assert kinds[i + 1..][later - i - 1] == kinds[later];
    KeywordRunSnoc(kinds[i + 1..], kind);
  }

  /** One step moves the open group to the name of a group line and otherwise keeps it. */
  lemma StepCurrent(st: State, kind: LineKind)
    ensures Step(st, kind).current == if kind.Opens? then Some(kind.name) else st.current
  {
  }

  /** One step adds a key only for a group line with a new name, at the end;
      a keyword line rewrites an existing entry in place. */
  lemma StepKeys(st: State, kind: LineKind)
    ensures Keys(Step(st, kind).groups)
         == if kind.Opens? && kind.name !in Keys(st.groups) then Keys(st.groups) + [kind.name] else Keys(st.groups)
  {
  }

  lemma RunSnoc(init: seq<LineKind>, kind: LineKind)
    ensures Run(init + [kind]) == Step(Run(init), kind)
  {
    assert (init + [kind])[..|init|] == init;
  }

  lemma GroupNamesSnoc(init: seq<LineKind>, kind: LineKind)
    ensures GroupNames(init + [kind]) == GroupNames(init) + (if kind.Opens? then [kind.name] else [])
  {
    assert (init + [kind])[..|init|] == init;
  }

  lemma LastOpenedSnoc(init: seq<LineKind>, kind: LineKind)
    ensures LastWhere(init + [kind], IsOpens) == if kind.Opens? then Some(|init|) else LastWhere(init, IsOpens)
  {
    LastWhereSnoc(init + [kind], IsOpens);
    assert (init + [kind])[..|init|] == init;
  }

  /** After any prefix of the reply, the open group is the last group line's name. */
  lemma {:induction false} CurrentSpec(kinds: seq<LineKind>)
    ensures Run(kinds).current == LastOpened(kinds)
  {
    if |kinds| > 0 {
      var init, kind := kinds[..|kinds| - 1], kinds[|kinds| - 1];
      assert kinds == init + [kind];
      CurrentSpec(init);
      RunSnoc(init, kind);
      LastOpenedSnoc(init, kind);
      StepCurrent(Run(init), kind);
    }
  }

  /** After any prefix of the reply, the keys are the group names in order
      of first appearance, each once. */
  lemma {:induction false} KeysSpec(kinds: seq<LineKind>)
    ensures Keys(Run(kinds).groups) == FirstSeen(GroupNames(kinds))
  {
    if |kinds| > 0 {
      var init, kind := kinds[..|kinds| - 1], kinds[|kinds| - 1];
      assert kinds == init + [kind];
      KeysSpec(init);
      RunSnoc(init, kind);
      KeysStep(init, Run(init), kind);
    }
  }

  /** The inductive step of `KeysSpec`. */
  lemma KeysStep(init: seq<LineKind>, st: State, kind: LineKind)
    requires Keys(st.groups) == FirstSeen(GroupNames(init))
    ensures Keys(Step(st, kind).groups) == FirstSeen(GroupNames(init + [kind]))
  {
    GroupNamesSnoc(init, kind);
    StepKeys(st, kind);
    if kind.Opens? {
      FirstSeenSnoc(GroupNames(init), kind.name);
    } else {
      assert GroupNames(init + [kind]) == GroupNames(init);
    }
  }

  /** After any prefix of the reply, each entry is what `Expected` describes. */
  lemma {:induction false} EntriesSpec(kinds: seq<LineKind>)
    ensures forall name :: Get(Run(kinds).groups, name) == Expected(kinds, name)
  {
    if |kinds| > 0 {
      var init, kind := kinds[..|kinds| - 1], kinds[|kinds| - 1];
      assert kinds == init + [kind];
      EntriesSpec(init);
      CurrentSpec(init);
      RunSnoc(init, kind);
      match kind
      case Opens(_, _) => OpensEntries(init, Run(init), kind);
      case Keywords(_) => KeywordsEntries(init, Run(init), kind);
      case Other => OtherEntries(init, Run(init), kind);
    }
  }

  /** The loop state after any prefix of the reply: the open group is the
      last group line's name; the keys are the group names in order of first
      appearance, each once; each entry is what `Expected` describes. */
  lemma RunSpec(kinds: seq<LineKind>)
    ensures Run(kinds).current == LastOpened(kinds)
    ensures Keys(Run(kinds).groups) == FirstSeen(GroupNames(kinds))
    ensures forall name :: Get(Run(kinds).groups, name) == Expected(kinds, name)
  {
    CurrentSpec(kinds);
    KeysSpec(kinds);
    EntriesSpec(kinds);
  }

  /** `Expected` read off a known last definition. */
  lemma ExpectedAt(kinds: seq<LineKind>, name: string, i: nat)
    requires LastDefinition(kinds, name) == Some(i)
    ensures Expected(kinds, name)
         == Some(Group(kinds[i].files, if name == "" then [] else KeywordRun(kinds[i + 1..]).GetOr([])))
  {
  }

  /** One more line is the last definition of `name` if it defines `name`;
      otherwise the earlier lines decide. */
  lemma LastDefinitionSnoc(init: seq<LineKind>, kind: LineKind, name: string)
    ensures LastDefinition(init + [kind], name)
         == if kind.Opens? && kind.name == name then Some(|init|) else LastDefinition(init, name)
  {
    assert (init + [kind])[..|init|] == init;
  }

  /** A name without a definition stays without one after a line that does not define it. */
  lemma ExpectedSnocNone(init: seq<LineKind>, kind: LineKind, name: string)
    requires !(kind.Opens? && kind.name == name) && LastDefinition(init, name).None?
    ensures Expected(init, name).None? && Expected(init + [kind], name).None?
  {
    LastDefinitionSnoc(init, kind, name);
  }

  /** After a line that does not define `name`, its definition is the same
      and its keyword run is read one line further. */
  lemma ExpectedSnocSome(init: seq<LineKind>, kind: LineKind, name: string, i: nat)
    requires !(kind.Opens? && kind.name == name) && LastDefinition(init, name) == Some(i)
    ensures Expected(init, name)
         == Some(Group(init[i].files, if name == "" then [] else KeywordRun(init[i + 1..]).GetOr([])))
    ensures Expected(init + [kind], name)
         == Some(Group(init[i].files, if name == "" then [] else KeywordRun(init[i + 1..] + [kind]).GetOr([])))
  {
    var kinds := init + [kind];
    ExpectedAt(init, name, i);
    assert Expected(kinds, name)
        == Some(Group(kinds[i].files, if name == "" then [] else KeywordRun(kinds[i + 1..]).GetOr([]))) by {
      LastDefinitionSnoc(init, kind, name);
      ExpectedAt(kinds, name, i);
    }
    assert kinds[i] == init[i];
    assert kinds[i + 1..] == init[i + 1..] + [kind];
  }

  /** The inductive step of `EntriesSpec` for a group line. */
  lemma OpensEntries(init: seq<LineKind>, st: State, kind: LineKind)
    requires kind.Opens?
    requires forall name :: Get(st.groups, name) == Expected(init, name)
    ensures forall name :: Get(Step(st, kind).groups, name) == Expected(init + [kind], name)
  {
    forall name ensures Get(Step(st, kind).groups, name) == Expected(init + [kind], name) {
      OpensExpected(init, kind, name);
    }
  }

  /** After a group line, its name is described by that line alone and every other name as before. */
  lemma OpensExpected(init: seq<LineKind>, kind: LineKind, name: string)
    requires kind.Opens?
    ensures Expected(init + [kind], name)
         == if name == kind.name then Some(Group(kind.files, [])) else Expected(init, name)
  {
    var kinds := init + [kind];
    if name == kind.name {
      assert kinds[..|init|] == init;
      assert LastDefinition(kinds, name) == Some(|init|);
      assert kinds[|init| + 1..] == [];
    } else {
      match LastDefinition(init, name)
      case None => ExpectedSnocNone(init, kind, name);
      case Some(i) =>
        ExpectedSnocSome(init, kind, name, i);
        KeywordRunSnoc(init[i + 1..], kind);
    }
  }

  /** The inductive step of `EntriesSpec` for a keyword line. */
  lemma KeywordsEntries(init: seq<LineKind>, st: State, kind: LineKind)
    requires kind.Keywords?
    requires st.current == LastOpened(init)
    requires forall name :: Get(st.groups, name) == Expected(init, name)
    ensures forall name :: Get(Step(st, kind).groups, name) == Expected(init + [kind], name)
  {
    if st.current.Some? && st.current.value != "" {
      AttachEntries(init, st, kind);
    } else {
      forall name ensures Get(st.groups, name) == Expected(init + [kind], name) {
        UnchangedEntry(init, kind, name);
      }
    }
  }

  /** A keyword line while a group with a non-empty name is open replaces that group's keywords. */
  lemma AttachEntries(init: seq<LineKind>, st: State, kind: LineKind)
    requires kind.Keywords?
    requires st.current == LastOpened(init) && st.current.Some? && st.current.value != ""
    requires forall name :: Get(st.groups, name) == Expected(init, name)
    ensures forall name :: Get(Step(st, kind).groups, name) == Expected(init + [kind], name)
  {
    var open := st.current.value;
    AttachExpected(init, kind, open);
    var g := Get(st.groups, open).value;
    assert Step(st, kind).groups == Put(st.groups, open, g.(keywords := kind.keywords));
    forall name ensures Get(Step(st, kind).groups, name) == Expected(init + [kind], name) {
      AttachExpected(init, kind, name);
    }
  }

  /** After an attached keyword line, the open group's keywords are that line's
      keywords and every other name is described as before. */
  lemma AttachExpected(init: seq<LineKind>, kind: LineKind, name: string)
    requires kind.Keywords?
    requires LastOpened(init).Some? && LastOpened(init).value != ""
    ensures Expected(init, LastOpened(init).value).Some?
    ensures Expected(init + [kind], name)
         == if name == LastOpened(init).value
            then Some(Expected(init, name).value.(keywords := kind.keywords))
            else Expected(init, name)
  {
    var i0 := LastWhere(init, IsOpens).value;
    LastDefinitionOfLastOpened(init, i0);
    if name == LastOpened(init).value {
      AttachOpen(init, kind, i0);
    } else {
      AttachOther(init, kind, i0, name);
    }
  }

  /** No group line follows the last one. */
  lemma NoGroupAfterLast(kinds: seq<LineKind>, i0: nat)
    requires LastWhere(kinds, IsOpens) == Some(i0)
    ensures !HasGroupLine(kinds[i0 + 1..])
  {
    var rest := kinds[i0 + 1..];
    forall j | 0 <= j < |rest| ensures !rest[j].Opens? {
      assert rest[j] == kinds[i0 + 1 + j];
      assert !IsOpens(kinds[i0 + 1 + j]);
    }
  }

  /** `AttachExpected` for the open group. */
  lemma AttachOpen(init: seq<LineKind>, kind: LineKind, i0: nat)
    requires kind.Keywords?
    requires LastWhere(init, IsOpens) == Some(i0) && init[i0].name != ""
    requires LastDefinition(init, init[i0].name) == Some(i0)
    ensures Expected(init + [kind], init[i0].name) == Some(Group(init[i0].files, kind.keywords))
  {
    ExpectedSnocSome(init, kind, init[i0].name, i0);
    NoGroupAfterLast(init, i0);
    KeywordRunSnoc(init[i0 + 1..], kind);
  }

  /** `AttachExpected` for any group but the open one. */
  lemma AttachOther(init: seq<LineKind>, kind: LineKind, i0: nat, name: string)
    requires kind.Keywords?
    requires LastWhere(init, IsOpens) == Some(i0) && name != init[i0].name
    ensures Expected(init + [kind], name) == Expected(init, name)
  {
    match LastDefinition(init, name)
    case None => ExpectedSnocNone(init, kind, name);
    case Some(i) =>
      ExpectedSnocSome(init, kind, name, i);
      assert IsOpens(init[i]);
      assert i != i0;
      KeywordRunBlocked(init, i, i0, kind);
  }

  /** The last group line is the last definition of its own name. */
  lemma LastDefinitionOfLastOpened(kinds: seq<LineKind>, i0: nat)
    requires LastWhere(kinds, IsOpens) == Some(i0)
    ensures LastDefinition(kinds, kinds[i0].name) == Some(i0)
  {
    var r := LastDefinition(kinds, kinds[i0].name);
    assert IsOpens(kinds[i0]);
    assert r.Some?;
    assert IsOpens(kinds[r.value]);
  }

  /** The inductive step of `EntriesSpec` for any other line. */
  lemma OtherEntries(init: seq<LineKind>, st: State, kind: LineKind)
    requires kind.Other?
    requires forall name :: Get(st.groups, name) == Expected(init, name)
    ensures forall name :: Get(Step(st, kind).groups, name) == Expected(init + [kind], name)
  {
    forall name ensures Get(st.groups, name) == Expected(init + [kind], name) {
      UnchangedEntry(init, kind, name);
    }
  }

  /** A line that leaves the state alone leaves every entry's description alone. */
  lemma UnchangedEntry(init: seq<LineKind>, kind: LineKind, name: string)
    requires !kind.Opens?
    requires kind.Keywords? ==> LastOpened(init).None? || LastOpened(init).value == ""
    ensures Expected(init + [kind], name) == Expected(init, name)
  {
    match LastDefinition(init, name)
    case None => ExpectedSnocNone(init, kind, name);
    case Some(i) =>
      ExpectedSnocSome(init, kind, name, i);
      if name != "" {
        if kind.Keywords? {
          assert IsOpens(init[i]);
          var i0 := LastWhere(init, IsOpens).value;
          assert init[i0].name == "";
          assert i != i0;
          assert i < i0;
          KeywordRunBlocked(init, i, i0, kind);
        } else {
          KeywordRunSnoc(init[i + 1..], kind);
        }
        assert KeywordRun(init[i + 1..] + [kind]) == KeywordRun(init[i + 1..]);
      }
  }

  /** The key that keyword lines update is always present. */
  lemma OpenGroupIsKey(kinds: seq<LineKind>)
    ensures Run(kinds).current.Some? ==> Run(kinds).current.value in Keys(Run(kinds).groups)
  {
    RunSpec(kinds);
    if Run(kinds).current.Some? {
      var i := LastWhere(kinds, IsOpens).value;
      assert kinds[i].name in GroupNames(kinds) by { GroupNamesHasOpens(kinds, i); }
    }
  }

  /** Every group line's name is among the group names. */
  lemma {:induction false} GroupNamesHasOpens(kinds: seq<LineKind>, i: nat)
    requires i < |kinds| && kinds[i].Opens?
    ensures kinds[i].name in GroupNames(kinds)
  {
    if i < |kinds| - 1 {
      GroupNamesHasOpens(kinds[..|kinds| - 1], i);
    }
  }

  /** The parsed dictionary for a reply: group names in first-seen order, each
      once, every entry as `Expected` describes; a failed request gives `{}`. */
  lemma ParseReplySpec(reply: Option<string>)
    ensures reply.None? ==> ParseReply(reply) == []
    ensures reply.Some? ==>
      var kinds := ClassifyAll(Split(Strip(reply.value), '\n'));
      && Keys(ParseReply(reply)) == FirstSeen(GroupNames(kinds))
      && Distinct(Keys(ParseReply(reply)))
      && forall name :: Get(ParseReply(reply), name) == Expected(kinds, name)
  {
    if reply.Some? {
      RunSpec(ClassifyAll(Split(Strip(reply.value), '\n')));
    }
  }

  // ---------------------------------------------------------------------
  // No parsed name, file or keyword holds a newline.

  /** The files and keywords of a group hold no newline. */
  predicate GroupClean(g: Group) {
    && (forall i :: 0 <= i < |g.files| ==> '\n' !in g.files[i])
    && (forall i :: 0 <= i < |g.keywords| ==> '\n' !in g.keywords[i])
  }

  /** The name, files or keywords a classified line carries hold no newline. */
  predicate KindClean(kind: LineKind) {
    match kind
    case Opens(name, files) => '\n' !in name && forall i :: 0 <= i < |files| ==> '\n' !in files[i]
    case Keywords(keywords) => forall i :: 0 <= i < |keywords| ==> '\n' !in keywords[i]
    case Other => true
  }

  /** No key of the dictionary and nothing in its groups holds a newline. */
  ghost predicate GroupsClean(groups: seq<Entry<string, Group>>) {
    forall name :: Get(groups, name).Some? ==> '\n' !in name && GroupClean(Get(groups, name).value)
  }

  /** What a line without newlines is read as carries none either. */
  lemma ClassifyClean(line: string)
    requires '\n' !in line
    ensures KindClean(Classify(line))
  {
    if IsGroupLine(line) {
      var j := FirstIndex(line, ':');
      assert '\n' !in line[..j];
      StripKeepsAbsent(line[..j], '\n');
      AfterFirstClean(line);
      var parts := Split(AfterFirst(line, ':'), ',');
      SplitPiecesExclude(AfterFirst(line, ':'), ',', '\n');
      var files := GroupFiles(line);
      forall k | 0 <= k < |files| ensures '\n' !in files[k] {
        assert files[k] in StripEach(parts);
        var i :| 0 <= i < |parts| && StripEach(parts)[i] == files[k];
        StripKeepsAbsent(parts[i], '\n');
      }
    } else if IsKeywordLine(line) {
      assert KeywordLabel[3] == ':';
      ContainsChar(line, KeywordLabel, ':');
      AfterFirstClean(line);
      var parts := Split(AfterFirst(line, ':'), ',');
      SplitPiecesExclude(AfterFirst(line, ':'), ',', '\n');
      forall k | 0 <= k < |parts| ensures '\n' !in StripEach(parts)[k] {
        StripKeepsAbsent(parts[k], '\n');
      }
    }
  }

  lemma AfterFirstClean(line: string)
    requires ':' in line && '\n' !in line
    ensures '\n' !in AfterFirst(line, ':')
  {
    var i :| 0 <= i < |line| && line[..i] + [':'] + AfterFirst(line, ':') == line && ':' !in line[..i];
  }

  /** One step keeps the dictionary free of newlines. */
  lemma StepClean(st: State, kind: LineKind)
    requires GroupsClean(st.groups) && KindClean(kind)
    ensures GroupsClean(Step(st, kind).groups)
  {
    var groups := Step(st, kind).groups;
    forall name | Get(groups, name).Some? ensures '\n' !in name && GroupClean(Get(groups, name).value) {
      match kind
      case Opens(n, files) =>
      case Keywords(keywords) =>
        if st.current.Some? && st.current.value != "" && Get(st.groups, st.current.value).Some? {
          if name != st.current.value {
            assert Get(groups, name) == Get(st.groups, name);
          }
        }
      case Other =>
    }
  }

  lemma {:induction false} RunClean(kinds: seq<LineKind>)
    requires forall i :: 0 <= i < |kinds| ==> KindClean(kinds[i])
    ensures GroupsClean(Run(kinds).groups)
  {
    if |kinds| > 0 {
      var n := |kinds| - 1;
      RunClean(kinds[..n]);
      StepClean(Run(kinds[..n]), kinds[n]);
    }
  }

  /** No group name, file or keyword of a parsed reply holds a newline: the
      reply is cut at newlines before anything is read from it. */
  lemma ParseReplyClean(reply: Option<string>)
    ensures GroupsClean(ParseReply(reply))
  {
    if reply.Some? {
      var lines := Split(Strip(reply.value), '\n');
      var kinds := ClassifyAll(lines);
      forall i | 0 <= i < |kinds| ensures KindClean(kinds[i]) {
        ClassifyClean(lines[i]);
      }
      RunClean(kinds);
    }
  }
}

=== FILE: ordered_map.dfy ===
/** A Python `dict` with its insertion order: a sequence of entries.
    Assigning to a key that is already present replaces its value in place
    and keeps its position; a new key goes to the end. */
module OrderedMap {
  import opened Wrappers

  datatype Entry<K, V> = Entry(key: K, value: V)

  /** The keys in iteration order. */
  function Keys<K, V>(m: seq<Entry<K, V>>): (ks: seq<K>)
    ensures |ks| == |m|
    ensures forall i :: 0 <= i < |m| ==> ks[i] == m[i].key
  {
    if |m| == 0 then [] else [m[0].key] + Keys(m[1..])
  }

  /** `d.get(k)`: the value stored under `k`, if any. */
  function Get<K(==), V>(m: seq<Entry<K, V>>, k: K): (r: Option<V>)
    ensures r.None? <==> k !in Keys(m)
    ensures r.Some? ==> Entry(k, r.value) in m
  {
    if |m| == 0 then None
    else if m[0].key == k then Some(m[0].value)
    else Get(m[1..], k)
  }

  /** `d[k] = v`. */
  function Put<K(==,!new), V>(m: seq<Entry<K, V>>, k: K, v: V): (r: seq<Entry<K, V>>)
    ensures Get(r, k) == Some(v)
    ensures forall k' :: k' != k ==> Get(r, k') == Get(m, k')
    ensures Keys(r) == if k in Keys(m) then Keys(m) else Keys(m) + [k]
  {
    if |m| == 0 then [Entry(k, v)]
    else if m[0].key == k then
      var r := [Entry(k, v)] + m[1..];
      PutHead(m, k, v, r);
      r
    else
      var rest := Put(m[1..], k, v);
      var r := [m[0]] + rest;
      PutCons(m, k, v, rest, r);
      r
  }

  lemma PutHead<K(!new), V>(m: seq<Entry<K, V>>, k: K, v: V, r: seq<Entry<K, V>>)
    requires |m| > 0 && m[0].key == k && r == [Entry(k, v)] + m[1..]
    ensures Get(r, k) == Some(v)
    ensures forall k' :: k' != k ==> Get(r, k') == Get(m, k')
    ensures Keys(r) == Keys(m)
  {
    assert r[1..] == m[1..];
  }

  lemma PutCons<K(!new), V>(m: seq<Entry<K, V>>, k: K, v: V, rest: seq<Entry<K, V>>, r: seq<Entry<K, V>>)
    requires |m| > 0 && m[0].key != k && r == [m[0]] + rest
    requires Get(rest, k) == Some(v)
    requires forall k' :: k' != k ==> Get(rest, k') == Get(m[1..], k')
    requires Keys(rest) == if k in Keys(m[1..]) then Keys(m[1..]) else Keys(m[1..]) + [k]
    ensures Get(r, k) == Some(v)
    ensures forall k' :: k' != k ==> Get(r, k') == Get(m, k')
    ensures Keys(r) == if k in Keys(m) then Keys(m) else Keys(m) + [k]
  {
    assert r[1..] == rest;
    GetCons(r, k);
    forall k' | k' != k ensures Get(r, k') == Get(m, k') {
      PutConsOther(m, rest, r, k');
    }
    PutConsKeys(m, k, rest, r);
  }

  lemma PutConsOther<K, V>(m: seq<Entry<K, V>>, rest: seq<Entry<K, V>>, r: seq<Entry<K, V>>, k': K)
    requires |m| > 0 && r == [m[0]] + rest && Get(rest, k') == Get(m[1..], k')
    ensures Get(r, k') == Get(m, k')
  {
    assert r[1..] == rest;
    GetCons(r, k');
    GetCons(m, k');
  }

  lemma PutConsKeys<K, V>(m: seq<Entry<K, V>>, k: K, rest: seq<Entry<K, V>>, r: seq<Entry<K, V>>)
    requires |m| > 0 && m[0].key != k && r == [m[0]] + rest
    requires Keys(rest) == if k in Keys(m[1..]) then Keys(m[1..]) else Keys(m[1..]) + [k]
    ensures Keys(r) == if k in Keys(m) then Keys(m) else Keys(m) + [k]
  {
    assert r[1..] == rest;
    KeysCons(r);
    KeysCons(m);
    assert k in Keys(m) <==> k in Keys(m[1..]);
  }

  lemma GetCons<K, V>(m: seq<Entry<K, V>>, k: K)
    requires |m| > 0
    ensures Get(m, k) == if m[0].key == k then Some(m[0].value) else Get(m[1..], k)
  {
  }

  lemma KeysCons<K, V>(m: seq<Entry<K, V>>)
    requires |m| > 0
    ensures Keys(m) == [m[0].key] + Keys(m[1..])
  {
  }

  /** The values concatenated in iteration order. */
  function Flatten<K, T>(m: seq<Entry<K, seq<T>>>): seq<T> {
    if |m| == 0 then [] else m[0].value + Flatten(m[1..])
  }

  /** Appending `x` to the list stored under `k` (Python's
      `d.setdefault(k, []).append(x)`) adds exactly one `x` to the flattened values. */
  lemma {:induction false} FlattenAppend<K(!new), T>(m: seq<Entry<K, seq<T>>>, k: K, x: T)
    ensures multiset(Flatten(Put(m, k, Get(m, k).GetOr([]) + [x])))
         == multiset(Flatten(m)) + multiset{x}
  {
    if |m| == 0 {
    } else if m[0].key == k {
      var r := Put(m, k, m[0].value + [x]);
      assert r[1..] == m[1..];
    } else {
      FlattenAppend(m[1..], k, x);
      var r := Put(m, k, Get(m, k).GetOr([]) + [x]);
      assert r[1..] == Put(m[1..], k, Get(m[1..], k).GetOr([]) + [x]);
    }
  }
}

=== FILE: seqs.dfy ===
/** Facts about sequences shared by the parsers and the bucketing step. */
module Seqs {
  import opened Wrappers

  /** No element occurs twice. */
  predicate Distinct<T(==)>(s: seq<T>) {
    forall i, j :: 0 <= i < j < |s| ==> s[i] != s[j]
  }

  /** The elements of `s`, each once, in the order of their first occurrence:
      the key order of a Python dict filled by walking `s`. */
  function FirstSeen<T(==)>(s: seq<T>): (r: seq<T>)
    ensures Distinct(r)
    ensures forall i :: 0 <= i < |r| ==> r[i] in s
    ensures forall i :: 0 <= i < |s| ==> s[i] in r
    ensures forall i, j :: 0 <= i < j < |r| ==> SeenBefore(s, r[i], r[j])
  {
    if |s| == 0 then []
    else
      var init, x := s[..|s| - 1], s[|s| - 1];
      var prev := FirstSeen(init);
      assert s == init + [x];
      SeenBeforeExtends(init, x, prev);
      if x in prev then prev else prev + [x]
  }

  /** `x` occurs in `s` before the first occurrence of `y`, if `y` occurs at all. */
  ghost predicate SeenBefore<T>(s: seq<T>, x: T, y: T) {
    exists a :: 0 <= a < |s| && s[a] == x && y !in s[..a + 1]
  }

  /** The order facts of `FirstSeen(init)` survive one more element, and an
      element new to `init` comes after every element of it. */
  lemma SeenBeforeExtends<T>(init: seq<T>, x: T, prev: seq<T>)
    requires forall i :: 0 <= i < |prev| ==> prev[i] in init
    requires forall i, j :: 0 <= i < j < |prev| ==> SeenBefore(init, prev[i], prev[j])
    ensures forall i, j :: 0 <= i < j < |prev| ==> SeenBefore(init + [x], prev[i], prev[j])
    ensures x !in init ==> forall i :: 0 <= i < |prev| ==> SeenBefore(init + [x], prev[i], x)
  {
    var s := init + [x];
    forall i, j | 0 <= i < j < |prev| ensures SeenBefore(s, prev[i], prev[j]) {
      assert SeenBefore(init, prev[i], prev[j]);
      var a :| 0 <= a < |init| && init[a] == prev[i] && prev[j] !in init[..a + 1];
      assert s[..a + 1] == init[..a + 1];
    }
    if x !in init {
      forall i | 0 <= i < |prev| ensures SeenBefore(s, prev[i], x) {
        var a :| 0 <= a < |init| && init[a] == prev[i];
        assert s[..a + 1] == init[..a + 1];
      }
    }
  }

  /** One more element is appended to the first-seen order exactly when it is new. */
  lemma FirstSeenSnoc<T>(s: seq<T>, x: T)
    ensures x in FirstSeen(s) <==> x in s
    ensures FirstSeen(s + [x]) == if x in s then FirstSeen(s) else FirstSeen(s) + [x]
  {
    assert (s + [x])[..|s|] == s;
    if x in s {
      var i :| 0 <= i < |s| && s[i] == x;
    }
    if x in FirstSeen(s) {
      var i :| 0 <= i < |FirstSeen(s)| && FirstSeen(s)[i] == x;
    }
  }

  /** The index of the last element of `s` satisfying `p`, if any. */
  function LastWhere<T>(s: seq<T>, p: T -> bool): (r: Option<nat>)
    ensures r.Some? ==> r.value < |s| && p(s[r.value])
    ensures r.Some? ==> forall j :: r.value < j < |s| ==> !p(s[j])
    ensures r.None? <==> forall j :: 0 <= j < |s| ==> !p(s[j])
  {
    if |s| == 0 then None
    else if p(s[|s| - 1]) then Some(|s| - 1)
    else LastWhere(s[..|s| - 1], p)
  }

  /** One more element: it is the last match if it matches, else the earlier elements decide. */
  lemma LastWhereSnoc<T>(s: seq<T>, p: T -> bool)
    requires |s| > 0
    ensures LastWhere(s, p) == if p(s[|s| - 1]) then Some(|s| - 1) else LastWhere(s[..|s| - 1], p)
  {
  }
}

=== FILE: text.dfy ===
/** The few Python `str` operations the two scripts rely on, on `seq<char>`. */
module Text {

  /** The characters Python's `str.isspace()` accepts, which is the set a
      bare `str.strip()` removes from both ends. */
  predicate IsSpace(c: char) {
    || c == ' '
    || '\t' <= c <= '\r'
    || '\U{1c}' <= c <= '\U{1f}'
    || c == '\U{85}'
    || c == '\U{a0}'
    || c == '\U{1680}'
    || '\U{2000}' <= c <= '\U{200a}'
    || c == '\U{2028}'
    || c == '\U{2029}'
    || c == '\U{202f}'
    || c == '\U{205f}'
    || c == '\U{3000}'
  }

  predicate AllSpace(s: string) {
    forall k :: 0 <= k < |s| ==> IsSpace(s[k])
  }

  lemma AllSpaceCons(c: char, s: string)
    requires IsSpace(c) && AllSpace(s)
    ensures AllSpace([c] + s)
  {
    forall k | 0 <= k < |[c] + s| ensures IsSpace(([c] + s)[k]) {
      if k > 0 {
        assert ([c] + s)[k] == s[k - 1];
      }
    }
  }

  lemma AllSpaceSnoc(s: string, c: char)
    requires AllSpace(s) && IsSpace(c)
    ensures AllSpace(s + [c])
  {
    forall k | 0 <= k < |s + [c]| ensures IsSpace((s + [c])[k]) {
      if k < |s| {
        assert (s + [c])[k] == s[k];
      }
    }
  }

  /** Number of whitespace characters at the front of `s`. */
  function LeadingSpaces(s: string): (n: nat)
    ensures n <= |s| && AllSpace(s[..n])
    ensures n < |s| ==> !IsSpace(s[n])
  {
    if |s| > 0 && IsSpace(s[0]) then
      var m := LeadingSpaces(s[1..]);
      LeadingStep(s, m);
      m + 1
    else 0
  }

  /** A space in front extends the leading run of the rest by one. */
  lemma LeadingStep(s: string, m: nat)
    requires |s| > 0 && IsSpace(s[0]) && m <= |s| - 1
    requires AllSpace(s[1..][..m]) && (m < |s| - 1 ==> !IsSpace(s[1..][m]))
    ensures AllSpace(s[..m + 1]) && (m + 1 < |s| ==> !IsSpace(s[m + 1]))
  {
    assert AllSpace(s[..m + 1]) by {
      AllSpaceCons(s[0], s[1..][..m]);
      assert s[..m + 1] == [s[0]] + s[1..][..m];
    }
  }

  /** Number of whitespace characters at the end of `s`. */
  function TrailingSpaces(s: string): (n: nat)
    ensures n <= |s| && AllSpace(s[|s| - n..])
    ensures n < |s| ==> !IsSpace(s[|s| - n - 1])
  {
    if |s| > 0 && IsSpace(s[|s| - 1]) then
      var m := TrailingSpaces(s[..|s| - 1]);
      TrailingStep(s, m);
      m + 1
    else 0
  }

  /** A space at the end extends the trailing run of the rest by one. */
  lemma TrailingStep(s: string, m: nat)
    requires |s| > 0 && IsSpace(s[|s| - 1]) && m <= |s| - 1
    requires var init := s[..|s| - 1];
      AllSpace(init[|init| - m..]) && (m < |init| ==> !IsSpace(init[|init| - m - 1]))
    ensures AllSpace(s[|s| - (m + 1)..]) && (m + 1 < |s| ==> !IsSpace(s[|s| - (m + 1) - 1]))
  {
    var init := s[..|s| - 1];
    assert AllSpace(s[|s| - (m + 1)..]) by {
      AllSpaceSnoc(init[|init| - m..], s[|s| - 1]);
      assert s[|s| - (m + 1)..] == init[|init| - m..] + [s[|s| - 1]];
    }
    if m + 1 < |s| {
      assert s[|s| - (m + 1) - 1] == init[|init| - m - 1];
    }
  }

  /** Python's `s.strip()`. */
  function Strip(s: string): (r: string)
    ensures |r| > 0 ==> !IsSpace(r[0]) && !IsSpace(r[|r| - 1])
    ensures LeadingSpaces(s) + |r| <= |s|
    ensures r == s[LeadingSpaces(s)..LeadingSpaces(s) + |r|]
    ensures AllSpace(s[LeadingSpaces(s) + |r|..])
  {
    var rest := s[LeadingSpaces(s)..];
    rest[..|rest| - TrailingSpaces(rest)]
  }

  /** A string that is all whitespace strips to the empty string, and only such a string does. */
  lemma StripEmptyIffAllSpace(s: string)
    ensures Strip(s) == [] <==> AllSpace(s)
  {
    var i := LeadingSpaces(s);
    if Strip(s) == [] {
      assert i == |s|;
      forall k | 0 <= k < |s| ensures IsSpace(s[k]) {
        assert s[k] == s[..i][k];
      }
    } else {
      if i < |s| {
        assert !IsSpace(s[i]);
      }
    }
  }

  /** Stripping twice changes nothing more. */
  lemma StripIdempotent(s: string)
    ensures Strip(Strip(s)) == Strip(s)
  {
    var r := Strip(s);
    if |r| > 0 {
      assert LeadingSpaces(r) == 0;
      assert TrailingSpaces(r) == 0;
    }
  }

  /** Python's `[x.strip() for x in parts]`. */
  function StripEach(parts: seq<string>): (r: seq<string>)
    ensures |r| == |parts|
    ensures forall i :: 0 <= i < |parts| ==> r[i] == Strip(parts[i])
  {
    seq(|parts|, i requires 0 <= i < |parts| => Strip(parts[i]))
  }

  /** Python's `[x.strip() for x in parts if x.strip()]`: the stripped pieces that are not empty, in order. */
  function StripNonEmpty(parts: seq<string>): (r: seq<string>)
    ensures |r| <= |parts|
    ensures forall x :: x in r <==> x != [] && x in StripEach(parts)
  {
    if |parts| == 0 then []
    else
      var head := Strip(parts[0]);
      var tail := StripNonEmpty(parts[1..]);
      StripEachCons(parts);
      if head != [] then [head] + tail else tail
  }

  /** Filtering keeps the order of the pieces: the non-empty stripped pieces
      of two runs of pieces are those of the first followed by those of the
      second. */
  lemma {:induction false} StripNonEmptyAppend(a: seq<string>, b: seq<string>)
    ensures StripNonEmpty(a + b) == StripNonEmpty(a) + StripNonEmpty(b)
    decreases |a|
  {
    if |a| > 0 {
      StripNonEmptyAppend(a[1..], b);
      var head := if Strip(a[0]) != [] then [Strip(a[0])] else [];
      var rest, tail := StripNonEmpty(a[1..]), StripNonEmpty(b);
      assert StripNonEmpty(a) == head + rest by {
        StripNonEmptyCons(a);
      }
      assert StripNonEmpty(a + b) == head + (rest + tail) by {
        AppendTail(a, b);
        StripNonEmptyCons(a + b);
      }
      AppendAssoc(head, rest, tail);
    } else {
      assert a + b == b;
    }
  }

  lemma AppendTail<T>(a: seq<T>, b: seq<T>)
    requires |a| > 0
    ensures (a + b)[0] == a[0] && (a + b)[1..] == a[1..] + b
  {
  }

  lemma AppendAssoc<T>(a: seq<T>, b: seq<T>, c: seq<T>)
    ensures a + (b + c) == a + b + c
  {
  }

  /** The first piece contributes itself stripped, unless that is empty. */
  lemma StripNonEmptyCons(parts: seq<string>)
    requires |parts| > 0
    ensures StripNonEmpty(parts)
         == (if Strip(parts[0]) != [] then [Strip(parts[0])] else []) + StripNonEmpty(parts[1..])
  {
  }

  lemma StripEachCons(parts: seq<string>)
    requires |parts| > 0
    ensures forall x :: x in StripEach(parts) <==> x == Strip(parts[0]) || x in StripEach(parts[1..])
  {
    assert StripEach(parts) == [Strip(parts[0])] + StripEach(parts[1..]);
  }

  /** Index of the first occurrence of `c` in `s`. */
  function FirstIndex(s: string, c: char): (i: nat)
    requires c in s
    ensures i < |s| && s[i] == c && c !in s[..i]
  {
    if s[0] == c then 0
    else
      assert s == [s[0]] + s[1..];
      var i := 1 + FirstIndex(s[1..], c);
      assert s[..i] == [s[0]] + s[1..][..i - 1];
      i
  }

  /** An occurrence with none before it is the first. */
  lemma FirstIndexAt(s: string, c: char, j: nat)
    requires j < |s| && s[j] == c && c !in s[..j]
    ensures c in s && FirstIndex(s, c) == j
  {
    var i := FirstIndex(s, c);
    assert s[..j][..Min(i, j)] == s[..i][..Min(i, j)];
  }

  /** Python's `sep.join(parts)`. */
  function Join(parts: seq<string>, sep: string): string {
    if |parts| == 0 then []
    else if |parts| == 1 then parts[0]
    else parts[0] + sep + Join(parts[1..], sep)
  }

  /** Stripping removes characters and adds none. */
  lemma StripKeepsAbsent(s: string, c: char)
    requires c !in s
    ensures c !in Strip(s)
  {
    var r := Strip(s);
    forall k | 0 <= k < |r| ensures r[k] != c {
      assert r[k] == s[LeadingSpaces(s) + k];
    }
  }

  /** Python's `s.split(sep)` for a one-character separator: it keeps empty
      pieces, so `"".split(",") == [""]` and `",".split(",") == ["", ""]`. */
  function Split(s: string, sep: char): (r: seq<string>)
    ensures |r| > 0
    ensures forall i :: 0 <= i < |r| ==> sep !in r[i]
    ensures Join(r, [sep]) == s
    decreases |s|
  {
    if sep in s then
      var i := FirstIndex(s, sep);
      var rest := Split(s[i + 1..], sep);
      assert s == s[..i] + [sep] + s[i + 1..];
      assert ([s[..i]] + rest)[1..] == rest;
      [s[..i]] + rest
    else [s]
  }

  /** Everything after the first `c`: Python's `s.split(c, 1)[1]`. */
  function AfterFirst(s: string, c: char): (r: string)
    requires c in s
    ensures exists i :: 0 <= i < |s| && s[..i] + [c] + r == s && c !in s[..i]
  {
    var i := FirstIndex(s, c);
    assert s[..i] + [c] + s[i + 1..] == s;
    s[i + 1..]
  }

  /** `"".split(sep) == [""]`. */
  lemma SplitEmpty(sep: char)
    ensures Split([], sep) == [[]]
  {
  }

  /** Splitting at a separator that does not occur in the first piece peels that piece off. */
  lemma SplitCons(a: string, sep: char, b: string)
    requires sep !in a
    ensures Split(a + [sep] + b, sep) == [a] + Split(b, sep)
  {
    var s := a + [sep] + b;
    assert s[|a|] == sep;
    var i := FirstIndex(s, sep);
    assert s[..i] == a;
    assert s[i + 1..] == b;
  }

  /** Splitting a joined list gives the list back when no piece holds the separator. */
  lemma {:induction false} SplitJoin(parts: seq<string>, sep: char)
    requires |parts| > 0
    requires forall i :: 0 <= i < |parts| ==> sep !in parts[i]
    ensures Split(Join(parts, [sep]), sep) == parts
  {
    if |parts| == 1 {
      assert Join(parts, [sep]) == parts[0];
    } else {
      SplitJoin(parts[1..], sep);
      SplitCons(parts[0], sep, Join(parts[1..], [sep]));
    }
  }

  /** A character absent from a join is absent from every piece. */
  lemma {:induction false} JoinPiecesExclude(parts: seq<string>, sep: string, c: char)
    requires c !in Join(parts, sep)
    ensures forall i :: 0 <= i < |parts| ==> c !in parts[i]
  {
    if |parts| > 1 {
      assert Join(parts, sep) == parts[0] + (sep + Join(parts[1..], sep));
      JoinPiecesExclude(parts[1..], sep, c);
      forall i | 1 <= i < |parts| ensures c !in parts[i] {
        assert parts[i] == parts[1..][i - 1];
      }
    }
  }

  /** The pieces of a split hold no character the text lacks. */
  lemma SplitPiecesExclude(s: string, sep: char, c: char)
    requires c !in s
    ensures forall i :: 0 <= i < |Split(s, sep)| ==> c !in Split(s, sep)[i]
  {
    JoinPiecesExclude(Split(s, sep), [sep], c);
  }

  /** A character that is in no piece and not in the separator is not in the join. */
  lemma {:induction false} JoinExcludes(parts: seq<string>, sep: string, c: char)
    requires c !in sep
    requires forall i :: 0 <= i < |parts| ==> c !in parts[i]
    ensures c !in Join(parts, sep)
  {
    if |parts| > 1 {
      JoinExcludes(parts[1..], sep, c);
    }
  }

  predicate StartsWith(s: string, prefix: string) {
    |prefix| <= |s| && s[..|prefix|] == prefix
  }

  predicate EndsWith(s: string, suffix: string) {
    |suffix| <= |s| && s[|s| - |suffix|..] == suffix
  }

  /** Python's `sub in s` for a substring. */
  predicate Contains(s: string, sub: string)
    decreases |s|
  {
    StartsWith(s, sub) || (|s| > 0 && Contains(s[1..], sub))
  }

  /** A string that contains `sub` contains every character of `sub`. */
  lemma {:induction false} ContainsChar(s: string, sub: string, c: char)
    requires Contains(s, sub) && c in sub
    ensures c in s
    decreases |s|
  {
    if StartsWith(s, sub) {
      var k :| 0 <= k < |sub| && sub[k] == c;
      assert s[k] == s[..|sub|][k];
    } else {
      ContainsChar(s[1..], sub, c);
      assert s == [s[0]] + s[1..];
    }
  }

  /** Dropping the last character loses at most an occurrence that ends there. */
  lemma {:induction false} ContainsSnoc(s: string, sub: string)
    requires |s| > 0 && |sub| > 0
    ensures Contains(s, sub) <==> Contains(s[..|s| - 1], sub) || EndsWith(s, sub)
    decreases |s|
  {
    var init := s[..|s| - 1];
    PrefixOfInit(s, sub);
    if |sub| == |s| {
      WholeMatch(s, sub);
    }
    if |s| == 1 {
      assert !Contains(init, sub);
    } else {
      ContainsSnoc(s[1..], sub);
      assert s[1..][..|s| - 2] == init[1..];
      SuffixOfTail(s, sub);
    }
  }

  lemma PrefixOfInit(s: string, sub: string)
    requires |s| > 0
    ensures StartsWith(s[..|s| - 1], sub) <==> StartsWith(s, sub) && |sub| < |s|
  {
    if |sub| < |s| {
      assert s[..|s| - 1][..|sub|] == s[..|sub|];
    }
  }

  lemma SuffixOfTail(s: string, sub: string)
    requires |s| > 0
    ensures EndsWith(s[1..], sub) <==> EndsWith(s, sub) && |sub| < |s|
  {
    if |sub| < |s| {
      assert s[1..][|s| - 1 - |sub|..] == s[|s| - |sub|..];
    }
  }

  lemma WholeMatch(s: string, sub: string)
    requires |sub| == |s|
    ensures StartsWith(s, sub) <==> EndsWith(s, sub)
  {
  }

  /** Position of the last occurrence of `sub` in `s`: Python's `s.rsplit(sub, 1)` cuts there. */
  function LastOccurrence(s: string, sub: string): nat
    requires |sub| > 0 && Contains(s, sub)
    decreases |s|
  {
    if EndsWith(s, sub) then |s| - |sub|
    else
      ContainsSnoc(s, sub);
      LastOccurrence(s[..|s| - 1], sub)
  }

  /** `sub` occurs at `r` in `s`, and nowhere after `r`. */
  predicate OccursLastAt(s: string, sub: string, r: nat) {
    |sub| > 0 && r + |sub| <= |s| && s[r..r + |sub|] == sub && !Contains(s[r + 1..], sub)
  }

  /** `sub` occurs at the position `LastOccurrence` returns, and nowhere after it. */
  lemma {:induction false} LastOccurrenceSpec(s: string, sub: string)
    requires |sub| > 0 && Contains(s, sub)
    ensures OccursLastAt(s, sub, LastOccurrence(s, sub))
    decreases |s|
  {
    if EndsWith(s, sub) {
      OccurrenceAtEnd(s, sub);
    } else {
      ContainsSnoc(s, sub);
      var r := LastOccurrence(s[..|s| - 1], sub);
      assert LastOccurrence(s, sub) == r;
      LastOccurrenceSpec(s[..|s| - 1], sub);
      LastOccurrenceOfInit(s, sub, r);
    }
  }

  /** A final occurrence is the last: what follows its start is too short to hold another. */
  lemma OccurrenceAtEnd(s: string, sub: string)
    requires |sub| > 0 && EndsWith(s, sub)
    ensures OccursLastAt(s, sub, |s| - |sub|)
  {
    NotContainsShort(s[|s| - |sub| + 1..], sub);
  }

  /** An occurrence that is the last one before the final character stays the
      last one when no occurrence ends at the final character. */
  lemma LastOccurrenceOfInit(s: string, sub: string, r: nat)
    requires |s| > 0 && |sub| > 0 && !EndsWith(s, sub)
    requires OccursLastAt(s[..|s| - 1], sub, r)
    ensures OccursLastAt(s, sub, r)
  {
    var init := s[..|s| - 1];
    assert s[r..r + |sub|] == sub by {
      assert s[r..r + |sub|] == init[r..r + |sub|];
    }
    assert !Contains(s[r + 1..], sub) by {
      NoOccurrenceAfter(s, sub, r);
    }
  }

  /** Nothing after `r` holds `sub` when nothing after `r` before the final
      character does and `s` does not end with `sub`. */
  lemma NoOccurrenceAfter(s: string, sub: string, r: nat)
    requires |sub| > 0 && r + 1 < |s| && !EndsWith(s, sub)
    requires !Contains(s[..|s| - 1][r + 1..], sub)
    ensures !Contains(s[r + 1..], sub)
  {
    var tail := s[r + 1..];
    assert tail[..|tail| - 1] == s[..|s| - 1][r + 1..];
    ContainsSnoc(tail, sub);
    SuffixEndsWith(s, r + 1, sub);
  }

  /** A suffix of `s` that ends with `sub` shows that `s` does. */
  lemma SuffixEndsWith(s: string, i: nat, sub: string)
    requires i <= |s|
    ensures EndsWith(s[i..], sub) ==> EndsWith(s, sub)
  {
    if EndsWith(s[i..], sub) {
      assert s[i..][|s| - i - |sub|..] == s[|s| - |sub|..];
    }
  }

  /** A string shorter than `sub` cannot contain it. */
  lemma {:induction false} NotContainsShort(s: string, sub: string)
    requires |s| < |sub|
    ensures !Contains(s, sub)
    decreases |s|
  {
    if |s| > 0 {
      NotContainsShort(s[1..], sub);
    }
  }

  predicate IsAsciiLetter(c: char) {
    'A' <= c <= 'Z' || 'a' <= c <= 'z'
  }

  /** Lower-casing of one character, restricted to ASCII letters. */
  function LowerChar(c: char): char {
    if 'A' <= c <= 'Z' then (c as int + 32) as char else c
  }

  /** Python's `s.lower()` on the ASCII letters; every other character is kept. */
  function Lower(s: string): (r: string)
    ensures |r| == |s|
    ensures forall i :: 0 <= i < |s| ==> r[i] == LowerChar(s[i])
  {
    seq(|s|, i requires 0 <= i < |s| => LowerChar(s[i]))
  }

  /** A prefix without ASCII letters (such as a Hangul label) is found in the
      lower-cased string exactly when it is found in the original. */
  lemma LowerKeepsCaselessPrefix(s: string, prefix: string)
    requires forall k :: 0 <= k < |prefix| ==> !IsAsciiLetter(prefix[k])
    ensures StartsWith(Lower(s), prefix) <==> StartsWith(s, prefix)
  {
    if StartsWith(Lower(s), prefix) {
      forall k | 0 <= k < |prefix| ensures s[k] == prefix[k] {
        assert Lower(s)[..|prefix|][k] == prefix[k];
      }
      assert s[..|prefix|] == prefix;
    }
    if StartsWith(s, prefix) {
      forall k | 0 <= k < |prefix| ensures Lower(s)[k] == prefix[k] {
        assert s[..|prefix|][k] == prefix[k];
      }
      assert Lower(s)[..|prefix|] == prefix;
    }
  }

  /** Python's `s.replace(from, to)` for one-character arguments. */
  function ReplaceChar(s: string, from: char, to: char): (r: string)
    ensures |r| == |s|
    ensures forall i :: 0 <= i < |s| ==> r[i] == (if s[i] == from then to else s[i])
  {
    seq(|s|, i requires 0 <= i < |s| => if s[i] == from then to else s[i])
  }

  function Min(a: int, b: int): int {
    if a <= b then a else b
  }

  function Max(a: int, b: int): int {
    if a <= b then b else a
  }

  /** Python's slice `s[:n]`. */
  function Truncate(s: string, n: nat): (r: string)
    ensures |r| == Min(n, |s|)
    ensures StartsWith(s, r)
  {
    s[..Min(n, |s|)]
  }
}

=== FILE: topic_reply.dfy ===
/** The per-file analysis of the Markdown classifier: the document excerpt put
    into the prompt, and the parser that reads a topic and a summary back out
    of the model's free-text reply. The request itself is not modelled; its
    reply is an argument, `None` when the request raised. */
module TopicReply {
  import opened Wrappers
  import opened Text
  import opened Seqs

  datatype TopicSummary = TopicSummary(topic: string, summary: string)

  const TopicLabel: string := "주제:"
  const SummaryLabel: string := "요약:"

  /** What a reply without labelled lines, or a failed request, yields. */
  const Fallback: TopicSummary := TopicSummary("Unknown", "")

  /** The prompt carries at most this many characters of the document. */
  const ExcerptLimit: nat := 1000

  /** The two characters backslash and `n` (not a newline) at which the excerpt is cut. */
  const ExcerptCut: string := "\\n"

  /** How the loop reads one line of the reply: the value of a topic line,
      the value of a summary line, or nothing. */
  datatype LineKind = TopicLine(value: string) | SummaryLine(value: string) | Unlabelled

  /** A line passing a label test begins with the label itself, so its first
      colon is the label's own. */
  lemma LabelledLine(line: string, tag: string)
    requires tag == TopicLabel || tag == SummaryLabel
    requires StartsWith(Lower(line), tag)
    ensures StartsWith(line, tag)
    ensures ':' in line && FirstIndex(line, ':') == |tag| - 1
  {
    LowerKeepsCaselessPrefix(line, tag);
    assert line[..3] == tag;
    assert line[..2] == tag[..2];
    FirstIndexAt(line, ':', 2);
  }

  /** `line.split(":", 1)[1].strip()`. */
  function LabelValue(line: string): string
    requires ':' in line
  {
    Strip(AfterFirst(line, ':'))
  }

  /** The value of a labelled line is everything after the label, stripped;
      colons later in the line stay in the value. */
  lemma LabelValueAfterLabel(line: string, tag: string)
    requires tag == TopicLabel || tag == SummaryLabel
    requires StartsWith(Lower(line), tag)
    ensures ':' in line && LabelValue(line) == Strip(line[|tag|..])
  {
    LabelledLine(line, tag);
  }

  /** The two tests of the loop body on the lower-cased line, topic first. */
  function Classify(line: string): LineKind {
    if StartsWith(Lower(line), TopicLabel) then
      LabelledLine(line, TopicLabel);
      TopicLine(LabelValue(line))
    else if StartsWith(Lower(line), SummaryLabel) then
      LabelledLine(line, SummaryLabel);
      SummaryLine(LabelValue(line))
    else Unlabelled
  }

  /** Lower-casing never decides a label, since neither label holds a letter
      that has a case: a line is a topic line exactly when it starts with
      the topic label, and its value is the rest of the line, stripped. */
  lemma ClassifyTopic(line: string)
    ensures Classify(line).TopicLine? <==> StartsWith(line, TopicLabel)
    ensures Classify(line).TopicLine? ==> Classify(line).value == Strip(line[|TopicLabel|..])
  {
    LowerKeepsCaselessPrefix(line, TopicLabel);
    if StartsWith(line, TopicLabel) {
      LabelValueAfterLabel(line, TopicLabel);
    }
  }

  /** A line is a summary line exactly when it starts with the summary label
      and not with the topic label; its value is the rest of the line, stripped. */
  lemma ClassifySummary(line: string)
    ensures Classify(line).SummaryLine? <==> !StartsWith(line, TopicLabel) && StartsWith(line, SummaryLabel)
    ensures Classify(line).SummaryLine? ==> Classify(line).value == Strip(line[|SummaryLabel|..])
  {
    LowerKeepsCaselessPrefix(line, TopicLabel);
    LowerKeepsCaselessPrefix(line, SummaryLabel);
    if Classify(line).SummaryLine? {
      LabelValueAfterLabel(line, SummaryLabel);
    }
  }

  function ClassifyAll(lines: seq<string>): (r: seq<LineKind>)
    ensures |r| == |lines|
    ensures forall i :: 0 <= i < |lines| ==> r[i] == Classify(lines[i])
  {
    seq(|lines|, i requires 0 <= i < |lines| => Classify(lines[i]))
  }

  /** One iteration of the loop over the reply's lines. */
  function Step(acc: TopicSummary, kind: LineKind): TopicSummary {
    match kind
    case TopicLine(v) => acc.(topic := v)
    case SummaryLine(v) => acc.(summary := v)
    case Unlabelled => acc
  }

  /** The loop over all lines, starting from the fallback pair. */
  function ParseLines(kinds: seq<LineKind>): TopicSummary {
    if |kinds| == 0 then Fallback
    else Step(ParseLines(kinds[..|kinds| - 1]), kinds[|kinds| - 1])
  }

  /** The reply is stripped, cut at newlines and scanned. */
  function ParseReply(reply: Option<string>): TopicSummary {
    match reply
    case None => Fallback
    case Some(text) => ParseLines(ClassifyAll(Split(Strip(text), '\n')))
  }

  predicate IsTopic(kind: LineKind) {
    kind.TopicLine?
  }

  predicate IsSummary(kind: LineKind) {
    kind.SummaryLine?
  }

  /** Reference: the value of the last topic line, else "Unknown". */
  function LastTopic(kinds: seq<LineKind>): string {
    match LastWhere(kinds, IsTopic)
    case None => Fallback.topic
    case Some(i) => kinds[i].value
  }

  /** Reference: the value of the last summary line, else "". */
  function LastSummary(kinds: seq<LineKind>): string {
    match LastWhere(kinds, IsSummary)
    case None => Fallback.summary
    case Some(i) => kinds[i].value
  }

  /** One more line decides the topic if it is a topic line; otherwise the earlier lines do. */
  lemma LastTopicSnoc(kinds: seq<LineKind>)
    requires |kinds| > 0
    ensures var kind := kinds[|kinds| - 1];
      LastTopic(kinds) == if kind.TopicLine? then kind.value else LastTopic(kinds[..|kinds| - 1])
  {
    LastWhereSnoc(kinds, IsTopic);
  }

  /** One more line decides the summary if it is a summary line; otherwise the earlier lines do. */
  lemma LastSummarySnoc(kinds: seq<LineKind>)
    requires |kinds| > 0
    ensures var kind := kinds[|kinds| - 1];
      LastSummary(kinds) == if kind.SummaryLine? then kind.value else LastSummary(kinds[..|kinds| - 1])
  {
    LastWhereSnoc(kinds, IsSummary);
  }

  /** The parser returns the last topic line's value and the last summary
      line's value. */
  lemma {:induction false} ParseLinesIsLastLabel(kinds: seq<LineKind>)
    ensures ParseLines(kinds) == TopicSummary(LastTopic(kinds), LastSummary(kinds))
  {
    if |kinds| > 0 {
      ParseLinesIsLastLabel(kinds[..|kinds| - 1]);
      LastTopicSnoc(kinds);
      LastSummarySnoc(kinds);
    }
  }

  /** A failed request gives ("Unknown", ""); otherwise the reply's last
      topic line and last summary line decide the pair. */
  lemma ParseReplySpec(reply: Option<string>)
    ensures reply.None? ==> ParseReply(reply) == Fallback
    ensures reply.Some? ==>
      var kinds := ClassifyAll(Split(Strip(reply.value), '\n'));
      ParseReply(reply) == TopicSummary(LastTopic(kinds), LastSummary(kinds))
  {
    if reply.Some? {
      ParseLinesIsLastLabel(ClassifyAll(Split(Strip(reply.value), '\n')));
    }
  }

  /** Without a line starting with either label the parser returns ("Unknown", ""). */
  lemma NoLabelsGivesFallback(lines: seq<string>)
    requires forall i :: 0 <= i < |lines| ==>
      !StartsWith(lines[i], TopicLabel) && !StartsWith(lines[i], SummaryLabel)
    ensures ParseLines(ClassifyAll(lines)) == Fallback
  {
    var kinds := ClassifyAll(lines);
    forall j | 0 <= j < |kinds| ensures !IsTopic(kinds[j]) && !IsSummary(kinds[j]) {
      ClassifyTopic(lines[j]);
      ClassifySummary(lines[j]);
    }
    ParseLinesIsLastLabel(kinds);
  }

  /** `content[:1000].rsplit('\\n', 1)[0]`: the first 1000 characters, cut
      before the last backslash-n in them when there is one. */
  function Excerpt(content: string): (r: string)
    ensures |r| <= ExcerptLimit && StartsWith(content, r)
    ensures var head := Truncate(content, ExcerptLimit);
      if Contains(head, ExcerptCut)
      then |r| + 2 <= |head| && head[|r|..|r| + 2] == ExcerptCut && !Contains(head[|r| + 1..], ExcerptCut)
      else r == head
  {
    var head := Truncate(content, ExcerptLimit);
    if Contains(head, ExcerptCut) then
      LastOccurrenceSpec(head, ExcerptCut);
      head[..LastOccurrence(head, ExcerptCut)]
    else head
  }
}

=== FILE: uploads.dfy ===
/** The upload loop of the Markdown classifier: each file name is submitted
    for analysis once, with the content of its first upload; the analysed
    records pair that content with the topic and summary read from the reply. */
module Uploads {
  import opened Wrappers
  import opened Seqs
  import TopicReply
  import opened Text

  datatype Upload = Upload(name: string, content: string)

  /** The per-file record `{"filename", "content", "topic", "summary"}`. */
  datatype FileInfo = FileInfo(filename: string, content: string, topic: string, summary: string)

  function Names(uploads: seq<Upload>): (r: seq<string>)
    ensures |r| == |uploads|
    ensures forall i :: 0 <= i < |uploads| ==> r[i] == uploads[i].name
  {
    seq(|uploads|, i requires 0 <= i < |uploads| => uploads[i].name)
  }

  /** No earlier upload has the same name as upload `i`. */
  predicate FirstOfName(uploads: seq<Upload>, i: nat)
    requires i < |uploads|
  {
    forall k :: 0 <= k < i ==> uploads[k].name != uploads[i].name
  }

  /** `x` is the upload at some position `i` and no earlier upload has its name. */
  predicate IsFirstUpload(uploads: seq<Upload>, x: Upload) {
    exists i :: 0 <= i < |uploads| && uploads[i] == x && FirstOfName(uploads, i)
  }

  /** Reference: the first upload of each name, in upload order. */
  function FirstOfEachName(uploads: seq<Upload>): seq<Upload> {
    if |uploads| == 0 then []
    else
      var prev := FirstOfEachName(uploads[..|uploads| - 1]);
      var u := uploads[|uploads| - 1];
      if u.name in Names(prev) then prev else prev + [u]
  }

  /** The submitted uploads have pairwise distinct names. */
  lemma {:induction false} FirstOfEachNameDistinct(uploads: seq<Upload>)
    ensures Distinct(Names(FirstOfEachName(uploads)))
  {
    if |uploads| > 0 {
      var init := uploads[..|uploads| - 1];
      var u := uploads[|uploads| - 1];
      var prev := FirstOfEachName(init);
      var r := FirstOfEachName(uploads);
      FirstOfEachNameDistinct(init);
      if u.name !in Names(prev) {
        forall a, b | 0 <= a < b < |r| ensures Names(r)[a] != Names(r)[b] {
          assert Names(r)[a] == Names(prev)[a];
          if b < |prev| {
            assert Names(r)[b] == Names(prev)[b];
          }
        }
      }
    }
  }

  /** Each submitted upload is an upload unchanged (its content stays paired
      with its name), and the first one carrying its name. */
  lemma {:induction false} FirstOfEachNameAreFirsts(uploads: seq<Upload>)
    ensures forall j :: 0 <= j < |FirstOfEachName(uploads)| ==>
      IsFirstUpload(uploads, FirstOfEachName(uploads)[j])
  {
    if |uploads| > 0 {
      var n := |uploads| - 1;
      var init := uploads[..n];
      var u := uploads[n];
      var prev := FirstOfEachName(init);
      var r := FirstOfEachName(uploads);
      FirstOfEachNameAreFirsts(init);
      forall j | 0 <= j < |r|
        ensures IsFirstUpload(uploads, r[j])
      {
        if j < |prev| {
          assert IsFirstUpload(init, prev[j]);
          var i :| 0 <= i < |init| && init[i] == prev[j] && FirstOfName(init, i);
          assert uploads[i] == r[j] && FirstOfName(uploads, i);
        } else {
          forall k | 0 <= k < n ensures uploads[k].name != u.name {
            FirstOfEachNameCovers(init);
            assert init[k].name in Names(prev);
          }
          assert FirstOfName(uploads, n);
        }
      }
    }
  }

  /** Every name uploaded is submitted. */
  lemma {:induction false} FirstOfEachNameCovers(uploads: seq<Upload>)
    ensures forall i :: 0 <= i < |uploads| ==> uploads[i].name in Names(FirstOfEachName(uploads))
  {
    if |uploads| > 0 {
      var n := |uploads| - 1;
      var init := uploads[..n];
      var u := uploads[n];
      var prev := FirstOfEachName(init);
      var r := FirstOfEachName(uploads);
      FirstOfEachNameCovers(init);
      forall i | 0 <= i < |uploads| ensures uploads[i].name in Names(r) {
        if i < n {
          assert init[i].name in Names(prev);
          var j :| 0 <= j < |prev| && Names(prev)[j] == init[i].name;
          assert Names(r)[j] == uploads[i].name;
        } else if u.name !in Names(prev) {
          assert Names(r)[|prev|] == u.name;
        }
      }
    }
  }

  /** The first upload of every name is submitted. */
  lemma {:induction false} FirstOfEachNameKeepsFirsts(uploads: seq<Upload>)
    ensures forall i :: 0 <= i < |uploads| && FirstOfName(uploads, i) ==> uploads[i] in FirstOfEachName(uploads)
  {
    if |uploads| > 0 {
      var n := |uploads| - 1;
      var init := uploads[..n];
      var u := uploads[n];
      var prev := FirstOfEachName(init);
      FirstOfEachNameKeepsFirsts(init);
      forall i | 0 <= i < |uploads| && FirstOfName(uploads, i) ensures uploads[i] in FirstOfEachName(uploads) {
        if i < n {
          assert FirstOfName(init, i);
          assert init[i] in prev;
        } else if u.name in Names(prev) {
          FirstOfEachNameAreFirsts(init);
          assert false;
        }
      }
    }
  }

  /** The loop over the uploads with its `seen_files` set. */
  method SubmitOnce(uploads: seq<Upload>) returns (submitted: seq<Upload>)
    ensures submitted == FirstOfEachName(uploads)
    ensures Distinct(Names(submitted))
    ensures forall j :: 0 <= j < |submitted| ==> IsFirstUpload(uploads, submitted[j])
    ensures forall i :: 0 <= i < |uploads| ==> uploads[i].name in Names(submitted)
  {
    submitted := [];
    var seen: set<string> := {};
    var i := 0;
    while i < |uploads|
      invariant 0 <= i <= |uploads|
      invariant submitted == FirstOfEachName(uploads[..i])
      invariant forall name :: name in seen <==> name in Names(submitted)
    {
      var u := uploads[i];
      assert uploads[..i + 1][..i] == uploads[..i];
      if u.name !in seen {
        seen := seen + {u.name};
        submitted := submitted + [u];
        assert Names(submitted) == Names(submitted[..|submitted| - 1]) + [u.name];
      }
      i := i + 1;
    }
    assert uploads[..i] == uploads;
    FirstOfEachNameDistinct(uploads);
    FirstOfEachNameAreFirsts(uploads);
    FirstOfEachNameCovers(uploads);
  }

  /** The record an analysed upload yields; `reply` is the model's reply, `None` when the request raised.
      A raised request gives topic "Unknown" and an empty summary; otherwise the last topic line and
      the last summary line of the stripped reply decide them. */
  function Analyse(u: Upload, reply: Option<string>): (info: FileInfo)
    ensures info.filename == u.name && info.content == u.content
    ensures reply.None? ==> info.topic == "Unknown" && info.summary == ""
    ensures reply.Some? ==>
      var kinds := TopicReply.ClassifyAll(Split(Strip(reply.value), '\n'));
      info.topic == TopicReply.LastTopic(kinds) && info.summary == TopicReply.LastSummary(kinds)
  {
    TopicReply.ParseReplySpec(reply);
    var ts := TopicReply.ParseReply(reply);
    FileInfo(u.name, u.content, ts.topic, ts.summary)
  }

  /** No two records share a file name. */
  predicate UniqueFilenames(infos: seq<FileInfo>) {
    forall a, b :: 0 <= a < b < |infos| ==> infos[a].filename != infos[b].filename
  }

  /** `order` lists each of the indices `0 .. n-1` once: the order in which
      the `n` submitted requests complete, which the program does not control. */
  predicate IsCompletionOrder(order: seq<nat>, n: nat) {
    && |order| == n
    && Distinct(order)
    && (forall j :: 0 <= j < |order| ==> order[j] < n)
    && (forall i :: 0 <= i < n ==> i in order)
  }

  /** `file_infos`: one record per submitted upload, appended as its request
      completes; `replies[i]` is the reply to the request for `submitted[i]`. */
  function Collect(submitted: seq<Upload>, replies: seq<Option<string>>, order: seq<nat>): (infos: seq<FileInfo>)
    requires |replies| == |submitted| && IsCompletionOrder(order, |submitted|)
    ensures |infos| == |submitted|
    ensures forall j :: 0 <= j < |infos| ==> infos[j] == Analyse(submitted[order[j]], replies[order[j]])
  {
    seq(|order|, j requires 0 <= j < |order| => Analyse(submitted[order[j]], replies[order[j]]))
  }

  /** Whatever the completion order, every submitted upload yields exactly one
      record, and no two records share a name. */
  lemma CollectSpec(submitted: seq<Upload>, replies: seq<Option<string>>, order: seq<nat>)
    requires |replies| == |submitted| && IsCompletionOrder(order, |submitted|)
    requires Distinct(Names(submitted))
    ensures UniqueFilenames(Collect(submitted, replies, order))
    ensures forall i :: 0 <= i < |submitted| ==> Analyse(submitted[i], replies[i]) in Collect(submitted, replies, order)
    ensures forall x :: x in Collect(submitted, replies, order) <==>
      exists i :: 0 <= i < |submitted| && x == Analyse(submitted[i], replies[i])
  {
    var infos := Collect(submitted, replies, order);
    forall a, b | 0 <= a < b < |infos| ensures infos[a].filename != infos[b].filename {
      assert order[a] != order[b];
      assert Names(submitted)[order[a]] != Names(submitted)[order[b]];
    }
    forall i | 0 <= i < |submitted| ensures Analyse(submitted[i], replies[i]) in infos {
      assert i in order;
      var j :| 0 <= j < |order| && order[j] == i;
      assert infos[j] == Analyse(submitted[i], replies[i]);
    }
  }
}

=== FILE: wrappers.dfy ===
/** Optional values: a Python `None` or a present value. */
module Wrappers {

  datatype Option<+T> = None | Some(value: T) {

    /** The encapsulated value, or `default` when absent (Python's `x or default`). */
    function GetOr(default: T): T {
      match this
      case Some(v) => v
      case None => default
    }
  }
}
